=== FILE: README.md ===
# A model of the per-connection pipeline of a small C HTTP server

This project models what one connection thread of the server does with the
bytes a client sends. It covers two revisions of the same pipeline:

- the current one in `src/serverfunc.c`;
- the older one in the top-level `serverfunc.c`.

The current pipeline has four stages:

1. **Assembly.** `handle_client` reads one byte at a time. It folds the bytes
   into CRLF-terminated lines, and the first empty line ends a block. A CR
   only raises a sticky flag. An LF seen while the flag is up commits the line.
   `line_num` is never reset, so later blocks arrive behind NULL slots that a
   skip loop steps over.
2. **Parsing.** `parse_http` splits the request line into method, path and
   version text. It splits every further line into a header with two
   `strtok(":")` calls.
3. **Resolution.** `get_file` maps the request onto a file. It follows this
   order: the 400 page, strip one leading slash, a `../` check that gives 403,
   the index page for an empty path, and 404 when the open fails.
4. **Response.** `handle_req`, `get_status` and `get_file_type` turn the
   provisional status 500 into 200. They pick the reason phrase and the
   content type, format the head with `Content-Length` (section 8.6 of
   RFC 9110), and write the head and then the body.

The older revision shares the assembler and most of the parser. It differs in
three ways:

- It does not clear the CR flag at the end of a block.
- It answers only when slot 0 of the line array holds a line, so only the
  first request on a connection is answered.
- It exits the whole process on an unknown method, and it always sends the
  same 1000 bytes.

Modules, one file each:

- `Base` (`base.dfy`): `Option`, octets, `%d` decimal text, and `strchr`/`strstr` over strings.
- `Assembly` (`assembly.dfy`): the line assembler, parameterised by revision.
- `Parsing` (`parsing.dfy`): both `parse_http`s, `strtok` and `method_str`.
- `Resolution` (`resolution.dfy`): `get_file` over an abstract filesystem, a map from path to bytes.
- `Responses` (`responses.dfy`): `handle_req`, `get_status`, `get_file_type`, and the bytes written.
- `Connection` (`connection.dfy`): the current connection loop.
- `Legacy` (`legacy.dfy`): the older connection loop and its fixed `handle_req`.

How C concepts are represented:

- A NULL pointer, whether a line slot or the backlog, is the empty string. The
  assembler never stores a non-NULL empty line.
- The socket is the input string, and end of input stands for `read`
  returning 0 or less.
- `fopen` succeeds exactly when the path is a key of the filesystem map.
- Where a request line the parser cannot read, or a block of NULL slots the
  skip loop runs past, would drive the source into undefined behaviour, the
  session ends with `UndefinedBehaviour` rather than assuming it cannot
  happen. This includes ordinary lines with an unknown method, such as
  "FOO / HTTP/1.1": the current scan never breaks on them, so `method_length`
  counts every non-space character and the path loop never assigns
  `req->path`, which `get_file` then frees. It also includes a request whose
  path `get_file` replaced by the index page or the 400 page when that page
  is missing: line 439 then frees the string literal. And it includes an answer whose
  Content-Length has seven digits or more: `sprintf` writes its head past the
  end of the `total_length + 1` bytes `handle_req` allocates.
- A session records the responses `handle_req` builds. The bytes the socket
  receives for each one are `Responses.WireAsWritten` of it, which is defined
  for every recorded response (`Connection.SessionWritten`). Where those
  bytes differ from the intended ones is listed under Findings.

## Model

| member | source | states |
|---|---|---|
| Base.Decimal | src/serverfunc.c:367 | `%d` of a non-negative number is a non-empty run of digits with no leading zero except for 0 |
| Base.DecimalRoundTrip | src/serverfunc.c:367 | reading the digits `%d` printed back as a number gives the number again |
| Base.DecimalWidth | src/serverfunc.c:367 | `%d` prints at most k digits exactly when the number is below 10^k |
| Base.SplitAt | src/serverfunc.c:391 | `strchr`: absent exactly when the character is absent; otherwise the string is the part before, the character and the part after, and the part before does not contain it |
| Base.SplitAtFirst | src/serverfunc.c:391 | the split is at the first occurrence: splitting a + c + b with c not in a gives back a and b |
| Base.MissingCharNotContained | src/serverfunc.c:418 | `strstr` finds nothing when the text lacks one of the pattern's characters |
| Assembly.Step | src/serverfunc.c:146-196 | one byte: an LF under a raised flag commits the backlog into slot `line_num`, grows `line_num` by one and, in the current revision, lowers the flag; any other byte leaves the array and `line_num` alone; no CR is ever appended to the backlog |
| Assembly.RunBlock | src/serverfunc.c:135-198 | a completed read cycle has consumed at least one byte, leaves no backlog, has a CR flag that is up only in the older revision, has an array of exactly `line_num` slots with `line_num` grown, and ends with the NULL slot of the empty line |
| Assembly.RestIsSuffix | src/serverfunc.c:135-176 | what a completed read cycle leaves unread is exactly the input behind the bytes it consumed |
| Assembly.AppendText | src/serverfunc.c:180-196 | bytes that are neither CR nor an LF under a raised flag are appended to the backlog and change nothing else |
| Assembly.CommitLine | src/serverfunc.c:146-196 | a non-empty line without CR followed by CRLF is committed as one new slot behind the old slots, and the flag is lowered |
| Assembly.CrLfCommits | src/serverfunc.c:146-178 | CRLF after a non-empty backlog commits it behind the old slots and lowers the flag, without ending the block |
| Assembly.CommitEnd | src/serverfunc.c:146-170 | CRLF with an empty backlog ends the cycle with a NULL slot behind the old slots; only the current revision lowers the flag |
| Assembly.RunRendered | src/serverfunc.c:146-178 | a block sent as lines each followed by CRLF and then CRLF is assembled into exactly those lines in order, then the NULL slot, behind the slots already there, with the rest of the input unread |
| Assembly.CarriageReturnNeverStored | src/serverfunc.c:177-178 | no CR ever reaches a committed line or the backlog |
| Assembly.FlaggedCommits | src/serverfunc.c:146-176 | on any line of any block, with the flag up, both CRLF and a bare LF commit the non-empty backlog as one slot behind the old slots and lower the flag |
| Assembly.LoneCarriageReturnDropped | src/serverfunc.c:146-196 | "a\rb\r\n" and "a\rb\n" both commit the single line "ab" |
| Parsing.MethodName | src/serverfunc.c:503-510 | every printed name is a single non-empty token without spaces |
| Parsing.MethodNameRoundTrip | src/serverfunc.c:245-259 | the `strcmp` chain reads every printed name back as the same method, and the "INVALID" printed for an unknown method as no method |
| Parsing.MethodOf | src/serverfunc.c:245-259 | a token names a method exactly when it equals that method's printed name GET, POST or HEAD |
| Parsing.Strtok | src/serverfunc.c:328-329 | a `strtok(":")` token is non-empty and colon-free, and there is none exactly when the text is all colons; the scan always moves forward |
| Parsing.LeadingColons | src/serverfunc.c:328 | the colons `strtok` skips: every leading colon and nothing after them |
| Parsing.StrtokFindsToken | src/serverfunc.c:328-329 | the token starts right after the leading colons and runs to the end of the text, or to the colon after which the scan resumes |
| Parsing.EmptyFieldsSkipped | src/serverfunc.c:328-329 | "n::v" gives name n and value v, and "n:" gives name n with a NULL value |
| Parsing.SplitHeader | src/serverfunc.c:328-329 | a header with no name has no value either |
| Parsing.ParseHeaders | src/serverfunc.c:315-335 | one header per line after the request line, in line order, each split by the two `strtok` calls |
| Parsing.HeaderRoundTrip | src/serverfunc.c:328-329 | a name and value without colons, written "name:value", are split back into that name and value; a name alone gives no value |
| Parsing.ValueCutAtColon | src/serverfunc.c:329 | the value ends at the next colon: "n:v:more" gives name n and value v |
| Parsing.LeadingColonSkipped | src/serverfunc.c:328 | leading colons of a header line are skipped |
| Parsing.Token | src/serverfunc.c:286-303 | the path loop collects the maximal space-free run starting at the given index |
| Parsing.ScanMethod | src/serverfunc.c:243-281 | the method loop stops on a recognised name before the end of the line, and it ends with method and status unset only when no space follows at all |
| Parsing.UnrecognisedLength | src/serverfunc.c:243-281 | when no space ends a method name, `method_length` is the number of non-space characters of the whole line |
| Parsing.ScanFirstToken | src/serverfunc.c:243-262 | when the first token is a method name the loop stops at the first space, with `method_length` the token's length |
| Parsing.ScanNeverRecognised | src/serverfunc.c:243-277 | if no space closes a method name in the characters accumulated so far, the scan ends unrecognised |
| Parsing.RequestLineDefined | src/serverfunc.c:243-307 | the current request line has defined behaviour exactly when it does not start with a space, has a space, and the path loop started one past `method_length`, recognised or not, meets a non-empty path closed by a space with the version offset inside the line |
| Parsing.ParseHttp | src/serverfunc.c:233-338 | the method is the one the scan broke on, or UNKNOWN when it never broke; the path is the space-free run starting one past `method_length`, and it is non-empty; the version is the rest of the line from `method_length` + path length + 7, which lies inside the line; one header per further line, split by `strtok`; `content_length` 0; status 500 for a recognised method and 400 otherwise |
| Parsing.ParseRendered | src/serverfunc.c:233-338 | "METHOD path HTTP/version" followed by "name:value" lines parses to that method, path (leading slash kept), version text and headers, with status 500 |
| Parsing.TokensOf | src/serverfunc.c:243-307 | for any first token and path without spaces, the first token ends at the first space, the path is the next token, and the version offset lands six characters past the path's closing space |
| Parsing.TokenShift | src/serverfunc.c:286-303 | a token read at an offset depends only on the text from that offset on |
| Parsing.TokenOfRequestLine | src/serverfunc.c:243-303 | in a request line as a client writes it, the first token is the method name and the path is the token after the first space |
| Parsing.UnknownMethod | src/serverfunc.c:243-307 | on "FOO / HTTP/1.1" the current scan never breaks, `method_length` is 12 and the path loop meets no space, so the line has no defined behaviour; the older parser exits the process |
| Parsing.UnknownScan | src/serverfunc.c:243-281 | the scan of "FOO / HTTP/1.1" rejects the text at both spaces and ends unrecognised with `method_length` 12 |
| Parsing.SpacedUnknownMethod | src/serverfunc.c:243-307 | an unknown method is parsed with status 400 when enough spaces follow: "A B C       " gives method UNKNOWN, path "C" and version text " " |
| Parsing.SpacedUnknownScan | src/serverfunc.c:243-281 | the scan of "A B C       " rejects "A", "AB" and "ABC" and ends unrecognised with `method_length` 3 |
| Parsing.SpacedScan | src/serverfunc.c:243-264 | the scan of "G E T /a HTTP/1.1" rejects "G" and "GE" and stops at the third space with GET and `method_length` 3 |
| Parsing.SpacedMethod | src/serverfunc.c:243-307 | the scan accumulates across spaces: "G E T /a HTTP/1.1" is read as GET with path "T" and version text "TP/1.1", while the older parser exits |
| Parsing.LegacyRequestLineDefined | serverfunc.c:223-274 | the older request line has defined behaviour exactly when it does not start with a space, has a space, and a method first token is followed by a non-empty path closed by a space with the version offset inside the line |
| Parsing.ParseLegacy | serverfunc.c:211-304 | the older parser exits the process exactly when the first token is not GET, POST or HEAD; otherwise it yields a known method and one header per further line |
| Parsing.ParsersAgree | serverfunc.c:223-302 | whenever the older parser does not exit, both parsers read the same method, path, version and headers from the same lines |
| Resolution.Resolve | src/serverfunc.c:403-464 | the full decision table. Only status, path and length change. A traversal gives 403 with the 403 page or NULL. Otherwise an existing target is served with the status kept. Otherwise 404 with the 404 page or NULL. `content_length` is the size of the file returned |
| Resolution.TraversalNeverOpensTarget | src/serverfunc.c:418-426 | a traversal is decided without looking at the requested file: two filesystems that agree on the 403 page give the same result |
| Resolution.BadRequestIgnoresPath | src/serverfunc.c:406-409 | a status-400 request resolves the same whatever path it carries |
| Resolution.DoubleSlashOpensAbsolutePath | src/serverfunc.c:411-435 | only one slash is stripped, so "//etc/passwd" passes the traversal check and opens "/etc/passwd" with status 500 |
| Resolution.DotOnlyInName | src/serverfunc.c:418 | a name whose only '.' follows its last '/' never contains "../" |
| Resolution.BadRequestPageIsSafe | src/serverfunc.c:406-418 | the 400 page's name does not trip the traversal check |
| Resolution.FreesLiteralExactly | src/serverfunc.c:403-442 | for a parsed request, line 439 frees a string literal exactly when the request is resolved to 404 after its path was replaced by the 400 page or the index page |
| Resolution.MissingIndexFreesLiteral | src/serverfunc.c:427-440 | "GET /" with no index page frees the literal index path |
| Resolution.MissingBadRequestPageFreesLiteral | src/serverfunc.c:405-440 | a bad request with no 400 page frees the literal 400 path |
| Resolution.OwnPathFreed | src/serverfunc.c:427-440 | a request that is not a bad request and names a non-empty path only ever frees its own heap path |
| Responses.ReasonPhrase | src/serverfunc.c:377-385 | the phrase is "Internal Server Error" exactly for statuses other than 200, 400, 403 and 404, and it has no CR |
| Responses.ContentType | src/serverfunc.c:387-401 | the type is one of text/html, text/plain and image/png, and text/html for a path without a dot |
| Responses.ContentTypeByFirstDot | src/serverfunc.c:391-400 | the type is decided by everything after the first dot: exactly "txt" gives text/plain, exactly "png" gives image/png, anything else (including "tar.txt") gives text/html |
| Responses.FieldRoundTrip | src/serverfunc.c:367 | a head field is read back up to the CR that ends it |
| Responses.FieldsRoundTrip | src/serverfunc.c:367 | the reason, type and length after the status code are read back as formatted |
| Responses.HeadRoundTrip | src/serverfunc.c:367 | a client parsing the formatted head recovers status, reason, content type and content length exactly |
| Responses.HandleRequest | src/serverfunc.c:340-375 | Content-Length equals the body's length, and the reason matches the status. The final status is 200, 400, 403 or 404; a provisional 500 becomes 200 exactly when the target exists and there is no traversal, and the status is 403 exactly on a traversal. The body is the target's bytes, or the 403 page's bytes or nothing. A missing target without traversal gives 404 with the 404 page's bytes or nothing |
| Responses.HandleRequestType | src/serverfunc.c:343-355 | the Content-Type is the type of the target when it is served, and text/html for the 403 and 404 fallbacks |
| Responses.ContentTypeSkipsFirst | src/serverfunc.c:387-401 | a leading character other than '.' does not change the type, so the slash `get_file` strips does not either |
| Responses.HtmlPageType | src/serverfunc.c:387-401 | a page named stem.html with no dot in the stem is text/html |
| Responses.ForbiddenPageType | src/serverfunc.c:387-401 | the 403 page is served as text/html |
| Responses.NotFoundPageType | src/serverfunc.c:387-401 | the 404 page is served as text/html |
| Responses.ServesRequestedFile | src/serverfunc.c:340-464 | "/name" for an existing file gives 200 OK, that file's bytes and their count as Content-Length |
| Responses.BadRequestAnswered | src/serverfunc.c:406-409 | a bad request is answered 400 Bad Request, as HTML, with the 400 page's bytes |
| Responses.BadRequestResolved | src/serverfunc.c:406-436 | `get_file` loads the 400 page for a bad request, keeping status 400 and setting the length to the page's size |
| Responses.BadRequestPageType | src/serverfunc.c:387-401 | the 400 page is served as text/html |
| Responses.FormatHead | src/serverfunc.c:367 | the head starts with "HTTP/1.1 " and ends with the empty line CRLF CRLF |
| Responses.HeadBudget | src/serverfunc.c:357 | the byte count reserves `sizeof(int)` bytes for each of the two numbers in place of their digits, and one byte more, over the formatted head's length |
| Responses.HeadLength | src/serverfunc.c:367 | the formatted head of a three-digit status is 51 characters plus the reason, the type and the digits of the length |
| Responses.BudgetMatchesOnlySixDigits | src/serverfunc.c:357-367 | the byte count written equals the head's length exactly when Content-Length has six digits, and exceeds it exactly when it has fewer |
| Responses.WireAsWritten | src/serverfunc.c:357-371 | the first write sends `total_length` bytes, which is defined only when the head fits the buffer |
| Responses.Wire | src/serverfunc.c:367-371 | corrected write: the formatted head's bytes, immediately followed by the body and nothing else |
| Responses.WireDeliversBody | src/serverfunc.c:367-371 | with the corrected write, the Content-Length bytes that follow the head are exactly the body (the head itself parses back, by Responses.HeadRoundTrip) |
| Responses.ShortLengthSendsNuls | src/serverfunc.c:357-370 | as written, a Content-Length under 100000 puts 6 - digits NUL bytes between head and body, so the bytes differ from the corrected write |
| Responses.FiveByteFile | src/serverfunc.c:357-370 | a five-byte text file is preceded on the wire by five NUL bytes |
| Responses.ShortLengthFits | src/serverfunc.c:357-367 | as written, a Content-Length under 10^6 with a three-digit status keeps the head inside the buffer, so the write is defined |
| Responses.LongLengthOverflows | src/serverfunc.c:357-367 | as written, a Content-Length of seven digits or more makes `sprintf` overrun the buffer |
| Responses.SixDigitsAgree | src/serverfunc.c:357-371 | with a six-digit Content-Length the write as written and the corrected write send the same bytes |
| Connection.LeadingNulls | src/serverfunc.c:201-206 | the skip loop steps over exactly the NULL slots before the first line |
| Connection.Answer | src/serverfunc.c:208-211 | every answer's head is consistent: a final status, its own reason, and the body's length |
| Connection.HeadOverrunsExactly | src/serverfunc.c:357-367 | a consistent response overruns the head buffer exactly when the as-written write has no bytes to send |
| Connection.Serve | src/serverfunc.c:116-221 | the current revision never reaches `exit` or `error`, and every response it records has a consistent head that fits the buffer |
| Connection.ServeBlock | src/serverfunc.c:200-219 | what follows a completed block never reaches `exit` or `error`, and its responses have consistent heads that fit the buffer |
| Connection.AnswerThen | src/serverfunc.c:208-219 | answering a block and going on never reaches `exit` or `error`, and every recorded response has a consistent head that fits the buffer |
| Connection.SessionWritten | src/serverfunc.c:357-371 | the as-written write of every response a session records is defined |
| Connection.LeadingNullsOfPadded | src/serverfunc.c:154-163 | the NULL slots in front of a block are exactly the `line_num` slots left by earlier cycles |
| Connection.ServeOneBlock | src/serverfunc.c:131-219 | whatever `line_num` earlier cycles left, a rendered block is answered from exactly its own lines, unless its head overruns the buffer; the next cycle starts with `line_num` one past the block's length |
| Connection.ServePadded | src/serverfunc.c:200-219 | a block behind any number of NULL slots is parsed from exactly its own lines and answered unless its head overruns the buffer, and the next cycle starts with `line_num` one past the block's length |
| Connection.AnswersInOrder | src/serverfunc.c:200-219 | the i-th answer of a run of blocks is the answer to the i-th block |
| Connection.ServeRendered | src/serverfunc.c:131-221 | pipelined rendered blocks on which `handle_req` is defined are answered one each, in order, each from its own lines, and the session then ends when the peer closes |
| Connection.PipelinedAnswers | src/serverfunc.c:131-221 | for such blocks the session holds one response per block, the i-th being the answer to the i-th block |
| Connection.OverrunUndefined | src/serverfunc.c:357-367 | a block whose answer has a Content-Length of seven digits or more records nothing and ends the session as undefined |
| Connection.FreedLiteralUndefined | src/serverfunc.c:405-440 | a block on which `get_file` frees a string literal records nothing and ends the session as undefined |
| Connection.BlockOutcome | src/serverfunc.c:200-219 | one block of plain lines: undefined behaviour and nothing recorded when its request line is unreadable, `get_file` frees a literal or its head overruns the buffer, and otherwise its answer first |
| Connection.AssembledBlock | src/serverfunc.c:131-206 | a rendered block reaches the skip loop behind exactly the NULL slots earlier cycles left |
| Connection.UndefinedRequestLine | src/serverfunc.c:200-211 | a block whose request line has no defined behaviour sends nothing and ends the session as undefined |
| Connection.UndefinedPadded | src/serverfunc.c:200-211 | the same for such a block behind any number of NULL slots |
| Connection.EmptyFirstLineUndefined | src/serverfunc.c:202-206 | a cycle that starts with an empty line leaves only NULL slots, so the skip loop runs off the array |
| Legacy.CString | serverfunc.c:315 | `%s` copies the bytes before the first NUL |
| Legacy.Fit | serverfunc.c:308-318 | the first n bytes of a zero-filled buffer that holds the given bytes |
| Legacy.LegacyReply | serverfunc.c:306-319 | a reply exists exactly when "index.html" exists |
| Legacy.LegacyBodyShort | serverfunc.c:315-318 | the reply is 1000 bytes, starting with the fixed 103-byte head, so only 897 body bytes follow a head that declares 1000 |
| Legacy.LegacyTruncatesBody | serverfunc.c:312-318 | for an index file without NUL in its first 897 bytes, the body sent is exactly those 897 bytes |
| Legacy.ServeLegacy | serverfunc.c:109-199 | every reply the older loop records, however the session ends, has exactly 1000 bytes |
| Legacy.ServeLegacyBlock | serverfunc.c:188-198 | every reply recorded after a completed block has exactly 1000 bytes |
| Legacy.FirstSlotStaysNull | serverfunc.c:143-163 | once `line_num` is past slot 0 and slot 0 is NULL, every array the assembler builds keeps slot 0 NULL |
| Legacy.SilentOnceSlotZeroNull | serverfunc.c:188-198 | from then on nothing is answered and the session runs until the peer closes |
| Legacy.AnswersAtMostOnce | serverfunc.c:116-198 | whatever the peer sends, the older revision answers at most once |
| Legacy.LegacyFirstBlock | serverfunc.c:143-188 | the first block reaches the guard with its own lines from slot 0 and the CR flag still up |
| Legacy.TwoRequests | serverfunc.c:116-198 | of two pipelined requests the older revision answers only the first, with its fixed reply, and then waits for the peer to close |
| Legacy.LegacyExitsOnUnknown | serverfunc.c:223-237 | a first block whose first token is not a method ends the older server's process |
| Legacy.UnknownMethodExits | serverfunc.c:223-237 | a block whose first token is not a method ends the older process; the current revision answers it with `handle_req` of its parse when its request line is defined and `handle_req` is defined on it, and otherwise records nothing and the session is undefined |

## Left out

- Sockets, `accept`, thread creation and detach, and `start_server`/`display_incoming`: operating-system plumbing. The input string stands for the socket.
- Connection.Serve: a `write` to a peer that has already closed raises SIGPIPE, which nothing in the server ignores, so it kills the process. Short or failed `write`s are not modelled either. The model records the response as sent, because the socket is the input string and the peer's state is not modelled.
- Parsing.ParseHeaders: assumes no other connection thread calls `strtok` between this thread's two calls for one header. `strtok` keeps its position in static storage shared by all threads, so another thread's call would make the value come from that thread's line. Each connection is modelled on its own.
- `src/servermain.c`, `append_dir` and the TLS variant of `handle_req`: they are not part of this model, and the last two have no bodies.
- The `float` that `atof` makes of the version: the version is kept as the text `atof` is given.
- Allocation failure, including `malloc` of a zero-length header array: allocation is treated as infallible.
- `free` of string literals and all other heap lifetime questions.
- Debug printing (`print_lines`, `print_http`, `printf`).
- Mid-block disconnect: the source would still parse the partial block, minus its last line. The model ends the session with `PeerClosed`.
- The older revision's `read` returning 0, which keeps processing the stale byte, is also modelled as `PeerClosed`. Its `read` failure exits only the thread.
- NUL bytes inside a line: C strings would stop at them, but the model keeps them.
- Files of 2^31 bytes or more are excluded from the filesystem map, because `ftell`'s result is stored in an `int`. Directories opened by `fopen` are not modelled.
- A HEAD request still receives the body. The model does the same and states no separate property about it.
- Parsing.ParseHttp and Parsing.ParseLegacy require a request line with defined behaviour (Parsing.RequestLineDefined and Parsing.LegacyRequestLineDefined). The connection loops turn any other line into `UndefinedBehaviour`.
- Legacy.LegacyReply: a missing "index.html" makes `fread` read from a NULL stream. The model treats it as undefined behaviour rather than modelling a crash.
- The code's own behaviour is modelled where an HTTP client might expect otherwise:
  - the path keeps its leading slash;
  - the version is text;
  - a missing 404 or 403 page still produces a head with Content-Length 0 rather than dropping the connection, when the path freed at line 439 was the request's own (Resolution.OwnPathFreed);
  - the older revision exits the process on an unknown method.
  - an unknown method on an ordinary request line is undefined behaviour in the current revision rather than a 400 answer; only a line with enough spaces for the path loop to close a path is answered 400.

## Findings

| source | as written | input that shows it | evidently intended | confidence | as-written member | corrected member |
|---|---|---|---|---|---|---|
| src/serverfunc.c:357-370 | the first `write` sends `total_length` bytes, computed with `sizeof(int)` for each number, not the length `sprintf` produced | a 5-byte file: "Content-Length: 5" is followed by five NUL bytes before the body; a length of 1000000 or more overruns the buffer | write exactly the formatted head, then the body | high, not executed | Responses.WireAsWritten (Responses.ShortLengthSendsNuls, Responses.LongLengthOverflows) | Responses.Wire (Responses.WireDeliversBody) |

The connection model keeps the code's own behaviour: a session ends as undefined where `get_file` frees a literal (Connection.FreedLiteralUndefined) or the head would overrun its buffer (Connection.OverrunUndefined), and the bytes of each recorded response are `Responses.WireAsWritten` of it. `Responses.Wire` is the write the code evidently intends, and Responses.WireDeliversBody is proved about it.

=== FILE: assembly.dfy ===
/** The line assembler of `handle_client`: one byte per `read`, folded into
    CRLF-terminated lines until the first empty line ends the header block.

    Both revisions of the server share this state machine; they differ only
    in whether the sticky CR flag is cleared when a block ends. */
module Assembly {
  import opened Base

  /** `Current` is src/serverfunc.c, `Legacy` the older top-level serverfunc.c. */
  datatype Revision = Current | Legacy

  /** The assembler's variables. `backlog` is the line accumulated so far and
      `cr` the `check_newline` flag. `lines` is the block's line array, empty
      while the C pointer is still NULL; `lineNum` is `line_num`, which is
      never reset between blocks. An empty string stands for a NULL pointer,
      both for the backlog and for a slot of `lines`: the assembler only ever
      allocates a backlog when it appends a byte, so no committed line is a
      non-NULL empty string. */
  datatype Assembler = Assembler(backlog: string, cr: bool, lines: seq<string>, lineNum: nat)

  /** The variables as a fresh connection thread initialises them. */
  const Initial: Assembler := Assembler([], false, [], 0)

  /** The first n slots of the array a commit allocates: what the old array
      held (`memcpy`), and NULL wherever there was no old array. */
  function Prefix(lines: seq<string>, n: nat): (r: seq<string>)
    ensures |r| == n
  {
    seq(n, i requires 0 <= i < n => if i < |lines| then lines[i] else [])
  }

  lemma PrefixOfWhole(lines: seq<string>)
    ensures Prefix(lines, |lines|) == lines
  {
  }

  /** The byte is the LF that commits an empty line: the end of the block. */
  predicate EndsBlock(s: Assembler, c: char) {
    c == LF && s.cr && s.backlog == []
  }

  /** One iteration of the inner read loop on byte c. */
  function Step(rev: Revision, s: Assembler, c: char): (r: Assembler)
    ensures CR !in s.backlog ==> CR !in r.backlog
    ensures c == LF && s.cr ==>
      && r.backlog == [] && |r.lines| == r.lineNum == s.lineNum + 1
      && r.lines[s.lineNum] == s.backlog && (rev == Current ==> !r.cr)
    ensures !(c == LF && s.cr) ==> r.lines == s.lines && r.lineNum == s.lineNum
  {
    if c == LF && s.cr then
      var lines := Prefix(s.lines, s.lineNum) + [s.backlog];
      // Only the current revision clears the flag when the block ends.
      var cr := if s.backlog == [] && rev == Legacy then s.cr else false;
      Assembler([], cr, lines, s.lineNum + 1)
    else if c == CR then
      s.(cr := true)
    else
      s.(backlog := s.backlog + [c])
  }

  /** The outcome of one read cycle: the block ended with `rest` still
      unread, or the input ran out first (`read` returned 0). */
  datatype Block = Complete(state: Assembler, rest: string) | Incomplete(state: Assembler)

  /** Runs the inner loop of `handle_client` until a block ends or the input
      is exhausted. */
  function RunBlock(rev: Revision, s: Assembler, input: string): (r: Block)
    ensures r.Complete? ==> |r.rest| < |input|
    ensures r.Complete? ==> r.state.backlog == [] && r.state.cr == (rev == Legacy)
    ensures r.Complete? ==> |r.state.lines| == r.state.lineNum > s.lineNum
    ensures r.Complete? ==> r.state.lines[|r.state.lines| - 1] == []
    decreases |input|
  {
    if input == [] then Incomplete(s)
    else if EndsBlock(s, input[0]) then Complete(Step(rev, s, input[0]), input[1..])
    else RunBlock(rev, Step(rev, s, input[0]), input[1..])
  }

  /** What a completed cycle leaves unread is the input behind the bytes it
      consumed. */
  lemma {:induction false} RestIsSuffix(rev: Revision, s: Assembler, input: string)
    ensures var r := RunBlock(rev, s, input);
      r.Complete? ==> r.rest == input[|input| - |r.rest|..]
    decreases |input|
  {
    if input != [] && !EndsBlock(s, input[0]) {
      RestIsSuffix(rev, Step(rev, s, input[0]), input[1..]);
    }
  }

  /** The wire form of a header block: every line followed by CRLF, then the
      empty line. */
  function Render(lines: seq<string>): string {
    if lines == [] then CRLF else lines[0] + CRLF + Render(lines[1..])
  }

  /** One unfolding of the loop on an input that starts with byte c. */
  lemma RunBlockCons(rev: Revision, s: Assembler, c: char, rest: string)
    ensures RunBlock(rev, s, [c] + rest)
         == if EndsBlock(s, c) then Complete(Step(rev, s, c), rest)
            else RunBlock(rev, Step(rev, s, c), rest)
  {
    assert ([c] + rest)[0] == c && ([c] + rest)[1..] == rest;
  }

  /** Bytes that are neither CR nor, while the flag is up, LF are appended to
      the backlog one by one and nothing else changes. */
  lemma {:induction false} AppendText(rev: Revision, s: Assembler, text: string, rest: string)
    requires CR !in text
    requires s.cr ==> LF !in text
    ensures RunBlock(rev, s, text + rest) == RunBlock(rev, s.(backlog := s.backlog + text), rest)
    decreases |text|
  {
    if text != [] {
      var c := text[0];
      assert text + rest == [c] + (text[1..] + rest);
      RunBlockCons(rev, s, c, text[1..] + rest);
      assert !EndsBlock(s, c);
      var s' := Step(rev, s, c);
      assert s' == s.(backlog := s.backlog + [c]);
      AppendText(rev, s', text[1..], rest);
      assert s.backlog + [c] + text[1..] == s.backlog + text;
    } else {
      assert text + rest == rest;
      assert s.backlog + text == s.backlog;
    }
  }

  /** A non-empty line followed by CRLF is committed as one slot, and the
      flag is cleared again. */
  lemma CommitLine(rev: Revision, s: Assembler, l: string, rest: string)
    requires s.backlog == [] && l != [] && CR !in l
    requires s.cr ==> LF !in l
    ensures RunBlock(rev, s, l + CRLF + rest)
         == RunBlock(rev, Assembler([], false, Prefix(s.lines, s.lineNum) + [l], s.lineNum + 1), rest)
  {
    var s1 := s.(backlog := l);
    assert RunBlock(rev, s, l + CRLF + rest) == RunBlock(rev, s1, CRLF + rest) by {
      assert l + CRLF + rest == l + (CRLF + rest);
      AppendText(rev, s, l, CRLF + rest);
      assert s.(backlog := s.backlog + l) == s1;
    }
    CrLfCommits(rev, s1, rest);
  }

  /** CRLF after a non-empty backlog commits it and clears the flag. */
  lemma CrLfCommits(rev: Revision, s: Assembler, rest: string)
    requires s.backlog != []
    ensures RunBlock(rev, s, CRLF + rest)
         == RunBlock(rev, Assembler([], false, Prefix(s.lines, s.lineNum) + [s.backlog], s.lineNum + 1), rest)
  {
    assert CRLF + rest == [CR] + ([LF] + rest);
    RunBlockCons(rev, s, CR, [LF] + rest);
    var s1 := s.(cr := true);
    assert Step(rev, s, CR) == s1;
    RunBlockCons(rev, s1, LF, rest);
  }

  /** The empty line ends the block with a NULL slot. */
  lemma CommitEnd(rev: Revision, s: Assembler, rest: string)
    requires s.backlog == []
    ensures RunBlock(rev, s, CRLF + rest)
         == Complete(Assembler([], rev == Legacy, Prefix(s.lines, s.lineNum) + [[]], s.lineNum + 1), rest)
  {
    assert CRLF + rest == [CR] + ([LF] + rest);
    RunBlockCons(rev, s, CR, [LF] + rest);
    var s1 := s.(cr := true);
    assert Step(rev, s, CR) == s1;
    RunBlockCons(rev, s1, LF, rest);
  }

  /** Assembling a rendered block yields exactly its lines, followed by the
      NULL slot of the terminating empty line, behind whatever slots the
      array already had; `rest` is left unread. Lines must be non-empty and
      free of CR; when the flag is already up (the older revision, after a
      first block), the first line must also be free of LF. */
  lemma {:induction false} RunRendered(rev: Revision, s: Assembler, lines: seq<string>, rest: string)
    requires s.backlog == []
    requires forall i | 0 <= i < |lines| :: lines[i] != [] && CR !in lines[i]
    requires s.cr && lines != [] ==> LF !in lines[0]
    ensures RunBlock(rev, s, Render(lines) + rest)
         == Complete(Assembler([], rev == Legacy, Prefix(s.lines, s.lineNum) + lines + [[]],
                               s.lineNum + |lines| + 1), rest)
    decreases |lines|
  {
    if lines == [] {
      CommitEnd(rev, s, rest);
      assert Prefix(s.lines, s.lineNum) + lines == Prefix(s.lines, s.lineNum);
    } else {
      var l := lines[0];
      assert Render(lines) + rest == l + CRLF + (Render(lines[1..]) + rest);
      CommitLine(rev, s, l, Render(lines[1..]) + rest);
      var s4 := Assembler([], false, Prefix(s.lines, s.lineNum) + [l], s.lineNum + 1);
      RunRendered(rev, s4, lines[1..], rest);
      PrefixOfWhole(Prefix(s.lines, s.lineNum) + [l]);
      assert Prefix(s.lines, s.lineNum) + [l] + lines[1..] == Prefix(s.lines, s.lineNum) + lines;
    }
  }

  /** No line the assembler commits, and no backlog it keeps, ever holds a CR. */
  predicate CarriageReturnFree(s: Assembler) {
    CR !in s.backlog && forall i | 0 <= i < |s.lines| :: CR !in s.lines[i]
  }

  lemma {:induction false} CarriageReturnNeverStored(rev: Revision, s: Assembler, input: string)
    requires CarriageReturnFree(s)
    ensures CarriageReturnFree(RunBlock(rev, s, input).state)
    decreases |input|
  {
    if input != [] {
      var c := input[0];
      var s' := Step(rev, s, c);
      assert CarriageReturnFree(s') by {
        if c == LF && s.cr {
          var p := Prefix(s.lines, s.lineNum);
          assert forall i | 0 <= i < |p| :: CR !in p[i] by {
            forall i | 0 <= i < |p| ensures CR !in p[i] {
              if i < |s.lines| { assert p[i] == s.lines[i]; } else { assert p[i] == []; }
            }
          }
          assert s'.lines == p + [s.backlog];
        } else if c != CR {
          assert s'.backlog == s.backlog + [c];
        }
      }
      if !EndsBlock(s, c) {
        CarriageReturnNeverStored(rev, s', input[1..]);
      }
    }
  }

  /** Text on either side of a lone CR lands in the backlog, and the flag
      stays up. */
  lemma AcrossLoneCarriageReturn(rev: Revision, a: string, b: string, tail: string)
    requires CR !in a && LF !in a && CR !in b && LF !in b
    ensures RunBlock(rev, Initial, a + [CR] + b + tail) == RunBlock(rev, Assembler(a + b, true, [], 0), tail)
  {
    assert a + [CR] + b + tail == a + ([CR] + (b + tail));
    AppendText(rev, Initial, a, [CR] + (b + tail));
    var sa := Assembler(a, false, [], 0);
    assert Initial.(backlog := Initial.backlog + a) == sa;
    RunBlockCons(rev, sa, CR, b + tail);
    assert Step(rev, sa, CR) == Assembler(a, true, [], 0);
    AppendText(rev, Assembler(a, true, [], 0), b, tail);
  }

  /** A lone CR inside a line is dropped, and a later LF still commits the
      line, whether or not a second CR precedes it: "a\rb\r\n" and "a\rb\n"
      both commit "ab". */
  lemma LoneCarriageReturnDropped(rev: Revision, a: string, b: string, rest: string)
    requires a + b != []
    requires CR !in a && LF !in a && CR !in b && LF !in b
    ensures RunBlock(rev, Initial, a + [CR] + b + CRLF + rest)
         == RunBlock(rev, Assembler([], false, [a + b], 1), rest)
    ensures RunBlock(rev, Initial, a + [CR] + b + [LF] + rest)
         == RunBlock(rev, Assembler([], false, [a + b], 1), rest)
  {
    var flagged := Assembler(a + b, true, [], 0);
    var committed := RunBlock(rev, Assembler([], false, [a + b], 1), rest);
    assert RunBlock(rev, flagged, CRLF + rest) == committed && RunBlock(rev, flagged, [LF] + rest) == committed by {
      var s := Assembler(a + b, false, [], 0);
      assert s.(cr := true) == flagged && Prefix([], 0) + [a + b] == [a + b];
      FlaggedCommits(rev, s, rest);
    }
    assert RunBlock(rev, Initial, a + [CR] + b + CRLF + rest) == RunBlock(rev, flagged, CRLF + rest) by {
      assert a + [CR] + b + CRLF + rest == a + [CR] + b + (CRLF + rest);
      AcrossLoneCarriageReturn(rev, a, b, CRLF + rest);
    }
    assert RunBlock(rev, Initial, a + [CR] + b + [LF] + rest) == RunBlock(rev, flagged, [LF] + rest) by {
      assert a + [CR] + b + [LF] + rest == a + [CR] + b + ([LF] + rest);
      AcrossLoneCarriageReturn(rev, a, b, [LF] + rest);
    }
  }

  /** With the flag up, both CRLF and a bare LF commit the backlog, on any
      line of any block: the CR only raises the flag again. */
  lemma FlaggedCommits(rev: Revision, s: Assembler, rest: string)
    requires s.backlog != []
    ensures var flagged := s.(cr := true);
      var committed := RunBlock(rev, Assembler([], false, Prefix(s.lines, s.lineNum) + [s.backlog], s.lineNum + 1), rest);
      && RunBlock(rev, flagged, CRLF + rest) == committed
      && RunBlock(rev, flagged, [LF] + rest) == committed
  {
    var flagged := s.(cr := true);
    assert Step(rev, flagged, LF) == Assembler([], false, Prefix(s.lines, s.lineNum) + [s.backlog], s.lineNum + 1);
    assert Step(rev, flagged, CR) == flagged;
    assert CRLF + rest == [CR] + ([LF] + rest);
    RunBlockCons(rev, flagged, CR, [LF] + rest);
    RunBlockCons(rev, flagged, LF, rest);
  }
}

=== FILE: base.dfy ===
/** Shared vocabulary of the server model: optional values, octets, and the
    handful of C string routines the request pipeline leans on (`%d`,
    `strstr`, `strchr`), each stated over `seq<char>`. */
module Base {

  /** A value that may be absent; stands for a C pointer that may be NULL. */
  datatype Option<+T> = None | Some(value: T)

  /** An octet, as read from a file or written to a socket. */
  newtype byte = b: int | 0 <= b < 0x100

  const CR: char := '\r'
  const LF: char := '\n'
  const CRLF: string := "\r\n"

  /** The octets a C `char` array holds: each character's low eight bits.
      Every string the server formats is ASCII, so this is the character
      code itself. */
  function Octets(s: string): (b: seq<byte>)
    ensures |b| == |s|
    ensures forall i | 0 <= i < |s| :: b[i] as int == s[i] as int % 0x100
  {
    seq(|s|, i requires 0 <= i < |s| => (s[i] as int % 0x100) as byte)
  }

  // ---------------------------------------------------------------------------
  // Decimal text, as printed by `%d` for a non-negative int
  // ---------------------------------------------------------------------------

  predicate IsDigit(c: char) {
    '0' <= c <= '9'
  }

  predicate IsDigits(s: string) {
    forall i | 0 <= i < |s| :: IsDigit(s[i])
  }

  function DigitChar(d: nat): (c: char)
    requires d < 10
    ensures IsDigit(c) && c as int - '0' as int == d
  {
    ('0' as int + d) as char
  }

  /** `%d` of a non-negative number: its decimal digits, most significant
      first, with no leading zero except for 0 itself. */
  function Decimal(n: nat): (s: string)
    ensures |s| > 0 && IsDigits(s)
    ensures s[0] == '0' ==> n == 0
    decreases n
  {
    if n < 10 then [DigitChar(n)] else Decimal(n / 10) + [DigitChar(n % 10)]
  }

  /** The number a string of decimal digits denotes (what a client's
      `atoi` would make of it). */
  function DecimalValue(s: string): nat
    requires IsDigits(s)
    decreases |s|
  {
    if s == [] then 0
    else DecimalValue(s[..|s| - 1]) * 10 + (s[|s| - 1] as int - '0' as int)
  }

  /** Reading back what `%d` printed gives the number again. */
  lemma {:induction false} DecimalRoundTrip(n: nat)
    ensures DecimalValue(Decimal(n)) == n
    decreases n
  {
    if n >= 10 {
      var s := Decimal(n);
      assert s[..|s| - 1] == Decimal(n / 10);
      DecimalRoundTrip(n / 10);
    }
  }

  /** `%d` prints at most k digits exactly when the number is below 10^k. */
  lemma {:induction false} DecimalWidth(n: nat, k: nat)
    requires k > 0
    ensures |Decimal(n)| <= k <==> n < Pow10(k)
    decreases n
  {
    if n >= 10 {
      if k == 1 {
        assert |Decimal(n)| >= 2;
      } else {
        DecimalWidth(n / 10, k - 1);
      }
    }
  }

  function Pow10(k: nat): (p: nat)
    ensures p > 0
  {
    if k == 0 then 1 else 10 * Pow10(k - 1)
  }

  /** A numeral is read as the number it spells, when it is one. */
  function ParseNumber(s: string): (r: Option<nat>)
    ensures r.Some? <==> s != [] && IsDigits(s)
  {
    if s != [] && IsDigits(s) then Some(DecimalValue(s)) else None
  }

  // ---------------------------------------------------------------------------
  // Searching in strings
  // ---------------------------------------------------------------------------

  /** pat occurs in s starting at index i. */
  predicate OccursAt(s: string, pat: string, i: nat) {
    i + |pat| <= |s| && s[i..i + |pat|] == pat
  }

  /** `strstr(s, pat) != NULL`: pat occurs somewhere in s. */
  predicate Contains(s: string, pat: string) {
    exists i | 0 <= i <= |s| :: OccursAt(s, pat, i)
  }

  /** A pattern holding a character that s lacks never occurs in s. */
  lemma MissingCharNotContained(s: string, pat: string, k: nat)
    requires k < |pat| && pat[k] !in s
    ensures !Contains(s, pat)
  {
    forall i | 0 <= i <= |s| ensures !OccursAt(s, pat, i) {
      if i + |pat| <= |s| {
        assert s[i..i + |pat|][k] == s[i + k] != pat[k];
      }
    }
  }

  /** Splits s at the first occurrence of c, as `strchr` finds it. */
  function SplitAt(s: string, c: char): (r: Option<(string, string)>)
    ensures r.None? <==> c !in s
    ensures r.Some? ==> s == r.value.0 + [c] + r.value.1 && c !in r.value.0
    decreases |s|
  {
    if s == [] then None
    else if s[0] == c then Some(([], s[1..]))
    else match SplitAt(s[1..], c)
      case None => None
      case Some((before, after)) => Some(([s[0]] + before, after))
  }

  /** The first occurrence is unique: splitting a + [c] + b with c not in a
      recovers a and b. */
  lemma {:induction false} SplitAtFirst(a: string, c: char, b: string)
    requires c !in a
    ensures SplitAt(a + [c] + b, c) == Some((a, b))
    decreases |a|
  {
    if a != [] {
      assert (a + [c] + b)[1..] == a[1..] + [c] + b;
      SplitAtFirst(a[1..], c, b);
      assert [a[0]] + a[1..] == a;
    } else {
      assert (a + [c] + b)[1..] == b;
    }
  }
}

=== FILE: connection.dfy ===
/** The outer loop of the current `handle_client`: assemble a block, skip
    the NULL slots that the never-reset `line_num` leaves in front of it,
    parse the block and answer it, until the peer closes the connection. */
module Connection {
  import opened Base
  import opened Assembly
  import opened Parsing
  import opened Resolution
  import opened Responses

  /** How a connection ends: the peer closed it (`read` returned 0 or
      less), the process exited (`error` in the older revision), or the
      input drove the source into undefined behaviour. */
  datatype Ending = PeerClosed | ProcessExited | UndefinedBehaviour

  /** Everything a connection produces: the responses, in order, and how it
      ended. */
  datatype Session = Session(responses: seq<Response>, end: Ending)

  /** The number of NULL slots the skip loop at lines 202-206 steps over:
      the slots before the first non-NULL one. */
  function LeadingNulls(lines: seq<string>): (k: nat)
    ensures k <= |lines|
    ensures forall i | 0 <= i < k :: lines[i] == []
    ensures k < |lines| ==> lines[k] != []
    decreases |lines|
  {
    if lines == [] || lines[0] != [] then 0 else 1 + LeadingNulls(lines[1..])
  }

  /** The assembler at the top of a read cycle of the current revision:
      no backlog, flag clear, a NULL line array, and `line_num` as left by
      the previous cycle. */
  function Fresh(lineNum: nat): Assembler {
    Assembler([], false, [], lineNum)
  }

  /** A response whose head agrees with itself and with its body: a final
      status, its own reason phrase, and the body's length. */
  predicate Consistent(r: Response) {
    && r.head.contentLength == |r.body|
    && r.head.status in {200, 400, 403, 404}
    && r.head.reason == ReasonPhrase(r.head.status)
  }

  /** `sprintf` writes the head past the end of its buffer: for a consistent
      response, exactly when Content-Length has seven digits or more
      (HeadOverrunsExactly). */
  predicate HeadOverruns(r: Response) {
    r.head.contentLength >= 1000000
  }

  /** The overrun test is the as-written write's own: a consistent response
      overruns exactly when `WireAsWritten` has no bytes to send. */
  lemma HeadOverrunsExactly(r: Response)
    requires Consistent(r)
    ensures HeadOverruns(r) <==> WireAsWritten(r).None?
  {
    if HeadOverruns(r) {
      LongLengthOverflows(r);
    } else {
      ShortLengthFits(r);
    }
  }

  /** A response the connection can record: consistent, and with a head
      that fits its buffer. */
  predicate Recordable(r: Response) {
    Consistent(r) && !HeadOverruns(r)
  }

  /** `handle_req` on a block has undefined behaviour: `get_file` frees a
      string literal (line 439), or `sprintf` overruns the head buffer
      (line 367). */
  predicate AnswerUndefined(fs: FileSystem, block: seq<string>)
    requires |block| > 0 && RequestLineDefined(block[0])
  {
    FreesLiteral(fs, ParseHttp(block)) || HeadOverruns(Answer(fs, block))
  }

  /** The answer to one block of lines. */
  function Answer(fs: FileSystem, block: seq<string>): (r: Response)
    requires |block| > 0 && RequestLineDefined(block[0])
    ensures Consistent(r)
  {
    HandleRequest(fs, ParseHttp(block))
  }

  /** The connection loop of `handle_client` (lines 116-221) on the bytes
      the peer sends. The session records the response `handle_req` builds
      for each block; what goes on the socket for it is
      `WireAsWritten(response).value` (SessionWritten). A head that would
      overrun its buffer ends the session as undefined instead. */
  function Serve(fs: FileSystem, s: Assembler, input: string): (r: Session)
    ensures r.end != ProcessExited
    ensures forall i | 0 <= i < |r.responses| :: Recordable(r.responses[i])
    decreases |input|, 0
  {
    match RunBlock(Current, s, input)
    case Incomplete(_) => Session([], PeerClosed)
    case Complete(t, rest) => ServeBlock(fs, t, rest)
  }

  /** What follows a completed block `t` (lines 200-219): skip the leading
      NULL slots, parse and answer, and start the next cycle with the
      decremented `line_num`. A block whose slots are all NULL (the cycle's
      first line was empty) sends the skip loop past the array; a request
      line `parse_http` cannot read is undefined as well, and so is a block
      on which `handle_req` frees a string literal or writes its head past
      the end of its buffer (AnswerUndefined). */
  function ServeBlock(fs: FileSystem, t: Assembler, rest: string): (r: Session)
    requires |t.lines| == t.lineNum > 0 && t.lines[|t.lines| - 1] == []
    ensures r.end != ProcessExited
    ensures forall i | 0 <= i < |r.responses| :: Recordable(r.responses[i])
    decreases |rest|, 2
  {
    var skip := LeadingNulls(t.lines);
    if skip == |t.lines| then Session([], UndefinedBehaviour)
    else
      var block := t.lines[skip..|t.lines| - 1];
      if !RequestLineDefined(block[0]) then Session([], UndefinedBehaviour)
      else AnswerThen(fs, block, t.lineNum - skip, rest)
  }

  /** Lines 212-219 for a block whose request line `parse_http` reads:
      answer it and go on to the next cycle with `line_num` at `lineNum`,
      unless `handle_req` has undefined behaviour on it. */
  function AnswerThen(fs: FileSystem, block: seq<string>, lineNum: nat, rest: string): (r: Session)
    requires |block| > 0 && RequestLineDefined(block[0])
    ensures r.end != ProcessExited
    ensures forall i | 0 <= i < |r.responses| :: Recordable(r.responses[i])
    decreases |rest|, 1
  {
    if AnswerUndefined(fs, block) then Session([], UndefinedBehaviour)
    else
      var answer := Answer(fs, block);
      var next := Serve(fs, Fresh(lineNum), rest);
      RecordedAhead(answer, next.responses);
      Session([answer] + next.responses, next.end)
  }

  /** Recording one more response ahead of recordable ones keeps every
      response recordable. */
  lemma RecordedAhead(answer: Response, responses: seq<Response>)
    requires Recordable(answer)
    requires forall i | 0 <= i < |responses| :: Recordable(responses[i])
    ensures forall i | 0 <= i < |responses| + 1 :: Recordable(([answer] + responses)[i])
  {
  }

  /** A block as a client sends it: a request line the parser reads, and
      non-empty header lines without CR. */
  predicate WellFormedBlock(block: seq<string>) {
    && |block| > 0 && RequestLineDefined(block[0])
    && forall i | 0 <= i < |block| :: block[i] != [] && CR !in block[i]
  }

  /** The leading NULL slots are exactly the padding in front of the block. */
  lemma LeadingNullsOfPadded(n: nat, block: seq<string>)
    requires |block| > 0 && block[0] != []
    ensures LeadingNulls(Prefix([], n) + block + [[]]) == n
  {
    var lines := Prefix([], n) + block + [[]];
    assert lines[n] == block[0];
    assert forall i | 0 <= i < n :: lines[i] == Prefix([], n)[i] == [];
  }

  /** One rendered block is answered from exactly its own lines, in arrival
      order: `parse_http` sees the block and nothing else, whatever
      `line_num` the previous cycle left behind. The next cycle starts with
      `line_num` one past the block's length. An answer whose head overruns
      its buffer ends the session as undefined instead. */
  lemma ServeOneBlock(fs: FileSystem, n: nat, block: seq<string>, rest: string)
    requires WellFormedBlock(block)
    ensures Serve(fs, Fresh(n), Render(block) + rest) == AnswerThen(fs, block, |block| + 1, rest)
  {
    var t := Assembler([], false, Prefix([], n) + block + [[]], n + |block| + 1);
    assert Serve(fs, Fresh(n), Render(block) + rest) == ServeBlock(fs, t, rest) by {
      AssembledBlock(fs, n, block, rest);
    }
    ServePadded(fs, n, block, rest);
  }

  /** A block behind n NULL slots is answered from its own lines. */
  lemma ServePadded(fs: FileSystem, n: nat, block: seq<string>, rest: string)
    requires WellFormedBlock(block)
    ensures var t := Assembler([], false, Prefix([], n) + block + [[]], n + |block| + 1);
      ServeBlock(fs, t, rest) == AnswerThen(fs, block, |block| + 1, rest)
  {
    var lines := Prefix([], n) + block + [[]];
    LeadingNullsOfPadded(n, block);
    assert lines[n..|lines| - 1] == block;
  }

  /** A block whose request line has no defined behaviour (an unknown
      method with no path where `method_length` points, say) sends nothing
      and ends the session as undefined. */
  lemma UndefinedRequestLine(fs: FileSystem, n: nat, block: seq<string>, rest: string)
    requires |block| > 0 && forall i | 0 <= i < |block| :: block[i] != [] && CR !in block[i]
    requires !RequestLineDefined(block[0])
    ensures Serve(fs, Fresh(n), Render(block) + rest) == Session([], UndefinedBehaviour)
  {
    AssembledBlock(fs, n, block, rest);
    UndefinedPadded(fs, n, block, rest);
  }

  /** A rendered block reaches the skip loop behind the n NULL slots that
      earlier cycles left. */
  lemma AssembledBlock(fs: FileSystem, n: nat, block: seq<string>, rest: string)
    requires forall i | 0 <= i < |block| :: block[i] != [] && CR !in block[i]
    ensures var t := Assembler([], false, Prefix([], n) + block + [[]], n + |block| + 1);
      Serve(fs, Fresh(n), Render(block) + rest) == ServeBlock(fs, t, rest)
  {
    RunRendered(Current, Fresh(n), block, rest);
  }

  /** The same for the block behind n NULL slots. */
  lemma UndefinedPadded(fs: FileSystem, n: nat, block: seq<string>, rest: string)
    requires |block| > 0 && block[0] != [] && !RequestLineDefined(block[0])
    ensures var t := Assembler([], false, Prefix([], n) + block + [[]], n + |block| + 1);
      ServeBlock(fs, t, rest) == Session([], UndefinedBehaviour)
  {
    var lines := Prefix([], n) + block + [[]];
    LeadingNullsOfPadded(n, block);
    assert lines[n..|lines| - 1] == block;
  }

  /** The bytes of several blocks sent back to back. */
  function RenderAll(blocks: seq<seq<string>>): string {
    if blocks == [] then [] else Render(blocks[0]) + RenderAll(blocks[1..])
  }

  /** The answers to several blocks, in order. */
  function Answers(fs: FileSystem, blocks: seq<seq<string>>): (rs: seq<Response>)
    requires forall i | 0 <= i < |blocks| :: WellFormedBlock(blocks[i])
    ensures |rs| == |blocks|
  {
    if blocks == [] then []
    else
      assert WellFormedBlock(blocks[0]);
      [Answer(fs, blocks[0])] + Answers(fs, blocks[1..])
  }

  /** The i-th answer is the answer to the i-th block. */
  lemma {:induction false} AnswersInOrder(fs: FileSystem, blocks: seq<seq<string>>, i: nat)
    requires forall j | 0 <= j < |blocks| :: WellFormedBlock(blocks[j])
    requires i < |blocks|
    ensures WellFormedBlock(blocks[i]) && Answers(fs, blocks)[i] == Answer(fs, blocks[i])
    decreases i
  {
    assert WellFormedBlock(blocks[i]);
    if i > 0 {
      AnswersInOrder(fs, blocks[1..], i - 1);
      assert blocks[1..][i - 1] == blocks[i];
    }
  }

  /** Pipelined requests are answered one by one, in order, each from its
      own block; when the peer then closes, nothing else is sent. */
  lemma {:induction false} ServeRendered(fs: FileSystem, n: nat, blocks: seq<seq<string>>)
    requires forall i | 0 <= i < |blocks| :: WellFormedBlock(blocks[i])
    requires forall i | 0 <= i < |blocks| :: WellFormedBlock(blocks[i]) ==> !AnswerUndefined(fs, blocks[i])
    ensures Serve(fs, Fresh(n), RenderAll(blocks)) == Session(Answers(fs, blocks), PeerClosed)
    decreases |blocks|
  {
    if blocks == [] {
      assert RunBlock(Current, Fresh(n), []) == Incomplete(Fresh(n));
    } else {
      var b, tail := blocks[0], blocks[1..];
      var next := Serve(fs, Fresh(|b| + 1), RenderAll(tail));
      assert Serve(fs, Fresh(n), RenderAll(blocks)) == Session([Answer(fs, b)] + next.responses, next.end) by {
        assert WellFormedBlock(b) && !AnswerUndefined(fs, b);
        assert RenderAll(blocks) == Render(b) + RenderAll(tail);
        ServeOneBlock(fs, n, b, RenderAll(tail));
      }
      ServeRendered(fs, |b| + 1, tail);
      assert Answers(fs, blocks) == [Answer(fs, b)] + Answers(fs, tail);
    }
  }

  /** The i-th response of a pipelined session is the answer to the i-th
      block, and there is one response per block. */
  lemma PipelinedAnswers(fs: FileSystem, n: nat, blocks: seq<seq<string>>)
    requires forall i | 0 <= i < |blocks| :: WellFormedBlock(blocks[i])
    requires forall i | 0 <= i < |blocks| :: WellFormedBlock(blocks[i]) ==> !AnswerUndefined(fs, blocks[i])
    ensures var r := Serve(fs, Fresh(n), RenderAll(blocks));
      && r.end == PeerClosed && |r.responses| == |blocks|
      && forall i | 0 <= i < |blocks| :: WellFormedBlock(blocks[i]) && r.responses[i] == Answer(fs, blocks[i])
  {
    ServeRendered(fs, n, blocks);
    forall i | 0 <= i < |blocks|
      ensures WellFormedBlock(blocks[i]) && Answers(fs, blocks)[i] == Answer(fs, blocks[i])
    {
      AnswersInOrder(fs, blocks, i);
    }
  }

  /** A block answered with a file of 10^6 bytes or more makes `sprintf`
      overrun the head buffer: nothing is sent for it and the session ends
      as undefined. */
  lemma OverrunUndefined(fs: FileSystem, n: nat, block: seq<string>, rest: string)
    requires WellFormedBlock(block) && HeadOverruns(Answer(fs, block))
    ensures Serve(fs, Fresh(n), Render(block) + rest) == Session([], UndefinedBehaviour)
  {
    ServeOneBlock(fs, n, block, rest);
  }

  /** The outcomes of one block of plain lines: nothing and undefined
      behaviour when `parse_http` cannot read its request line or when
      `handle_req` has undefined behaviour on it, and otherwise its answer
      first. */
  lemma BlockOutcome(fs: FileSystem, n: nat, block: seq<string>, rest: string)
    requires |block| > 0 && forall i | 0 <= i < |block| :: block[i] != [] && CR !in block[i]
    ensures var r := Serve(fs, Fresh(n), Render(block) + rest);
      if !RequestLineDefined(block[0]) || AnswerUndefined(fs, block) then r == Session([], UndefinedBehaviour)
      else r.responses != [] && r.responses[0] == Answer(fs, block)
  {
    if !RequestLineDefined(block[0]) {
      UndefinedRequestLine(fs, n, block, rest);
    } else {
      assert WellFormedBlock(block);
      ServeOneBlock(fs, n, block, rest);
    }
  }

  /** A block whose request path was replaced by the index page or the 400
      page, and whose page is missing, makes `get_file` free a string
      literal: nothing is recorded and the session ends as undefined. */
  lemma FreedLiteralUndefined(fs: FileSystem, n: nat, block: seq<string>, rest: string)
    requires WellFormedBlock(block) && FreesLiteral(fs, ParseHttp(block))
    ensures Serve(fs, Fresh(n), Render(block) + rest) == Session([], UndefinedBehaviour)
  {
    ServeOneBlock(fs, n, block, rest);
  }

  /** Every response a session records has bytes to send: the as-written
      write of its head is defined. */
  lemma SessionWritten(fs: FileSystem, s: Assembler, input: string)
    ensures var r := Serve(fs, s, input);
      forall i | 0 <= i < |r.responses| :: WireAsWritten(r.responses[i]).Some?
  {
    var r := Serve(fs, s, input);
    forall i | 0 <= i < |r.responses|
      ensures WireAsWritten(r.responses[i]).Some?
    {
      HeadOverrunsExactly(r.responses[i]);
    }
  }

  /** A cycle whose first line is empty leaves only NULL slots, and the skip
      loop runs off the array. */
  lemma EmptyFirstLineUndefined(fs: FileSystem, n: nat, rest: string)
    ensures Serve(fs, Fresh(n), CRLF + rest) == Session([], UndefinedBehaviour)
  {
    CommitEnd(Current, Fresh(n), rest);
    var lines := Prefix([], n) + [[]];
    assert Serve(fs, Fresh(n), CRLF + rest) == ServeBlock(fs, Assembler([], false, lines, n + 1), rest);
    assert forall i | 0 <= i < |lines| :: lines[i] == [];
    assert LeadingNulls(lines) == |lines|;
  }
}

=== FILE: legacy.dfy ===
/** The older revision of the connection loop (the top-level serverfunc.c):
    the same assembler with a CR flag that survives the end of a block, a
    guard on `lines[0]` instead of a skip loop, a parser that exits the
    process on an unknown method, and a `handle_req` that ignores the
    request and always sends the same 1000 bytes. */
module Legacy {
  import opened Base
  import opened Assembly
  import opened Parsing
  import opened Resolution
  import opened Responses
  import opened Connection

  /** The head `handle_req` formats (line 315), 103 characters. */
  const LegacyHead: string :=
    "HTTP/1.1 200 OK\r\nDate: Sun, 22 Oct 2017 00:00:00 BST\r\nContent-Type: text/html\r\nContent-Length: 1000\r\n\r\n"

  /** The Content-Length the head declares. */
  const DeclaredLength: nat := 1000

  /** `fread` reads at most this many bytes of the file. */
  const ReadLimit: nat := 1000

  /** `write` sends exactly this many bytes of the buffer. */
  const ReplySize: nat := 1000

  /** The file `fopen` opens: relative to the working directory, not the
      pages directory. */
  const LegacyIndex: string := "index.html"

  /** What `%s` copies out of a zero-filled buffer: the bytes up to the
      first NUL. */
  function CString(b: seq<byte>): (r: seq<byte>)
    ensures r <= b && 0 !in r
    ensures |r| < |b| ==> b[|r|] == 0
    decreases |b|
  {
    if b == [] || b[0] == 0 then [] else [b[0]] + CString(b[1..])
  }

  /** The first n bytes of a zero-filled buffer that holds b. */
  function Fit(b: seq<byte>, n: nat): (r: seq<byte>)
    ensures |r| == n
    ensures forall i | 0 <= i < n :: r[i] == if i < |b| then b[i] else 0
  {
    if |b| >= n then b[..n] else b + Zeros(n - |b|)
  }

  lemma LegacyHeadLength()
    ensures |LegacyHead| == 103
  {
  }

  /** The bytes `handle_req` (lines 306-319) writes: the fixed head, then as
      much of the file as `%s` copies, cut or zero-padded to 1000 bytes in
      all. Without the file `fread` is handed a NULL stream (None). */
  function LegacyReply(fs: FileSystem): (r: Option<seq<byte>>)
    ensures r.Some? <==> LegacyIndex in fs
  {
    match Lookup(fs, LegacyIndex)
    case None => None
    case Some(file) =>
      LegacyHeadLength();
      var read := if |file| <= ReadLimit then file else file[..ReadLimit];
      Some(Fit(Octets(LegacyHead) + CString(read), ReplySize))
  }

  /** The reply is always 1000 bytes: the head, then 897 bytes of body,
      fewer than the 1000 the head declares. The body is the file up to its
      first NUL, then zeros. */
  lemma LegacyBodyShort(fs: FileSystem)
    requires LegacyIndex in fs
    ensures var reply := LegacyReply(fs).value;
      && |reply| == ReplySize
      && reply[..|LegacyHead|] == Octets(LegacyHead)
      && |reply| - |LegacyHead| == 897 < DeclaredLength
  {
    LegacyHeadLength();
    var file := fs[LegacyIndex];
    var read := if |file| <= ReadLimit then file else file[..ReadLimit];
    var reply := LegacyReply(fs).value;
    var head := Octets(LegacyHead);
    assert reply == Fit(head + CString(read), ReplySize);
    forall i | 0 <= i < |head| ensures reply[i] == head[i] {
      assert (head + CString(read))[i] == head[i];
    }
  }

  /** A client that trusts Content-Length never gets its 1000 bytes: of an
      index file with no NUL among its first 897 bytes it receives exactly
      those 897 and nothing more. */
  lemma LegacyTruncatesBody(fs: FileSystem)
    requires LegacyIndex in fs
    requires |fs[LegacyIndex]| >= 897 && 0 !in fs[LegacyIndex][..897]
    ensures LegacyReply(fs).value[|LegacyHead|..] == fs[LegacyIndex][..897]
  {
    LegacyHeadLength();
    var file := fs[LegacyIndex];
    var read := if |file| <= ReadLimit then file else file[..ReadLimit];
    var head := Octets(LegacyHead);
    var text := CString(read);
    assert |text| >= 897 by {
      assert forall j | 0 <= j < 897 :: read[j] == file[..897][j] != 0;
    }
    var reply := LegacyReply(fs).value;
    assert reply == Fit(head + text, ReplySize);
    forall i | 0 <= i < 897 ensures reply[103 + i] == file[i] {
      assert (head + text)[103 + i] == text[i] == read[i];
    }
    assert reply[103..] == file[..897];
  }

  /** The outcome of a connection on the older revision: the replies sent,
      and how it ended. */
  datatype LegacySession = LegacySession(replies: seq<seq<byte>>, end: Ending)

  /** The older connection loop (lines 109-199). */
  function ServeLegacy(fs: FileSystem, s: Assembler, input: string): (r: LegacySession)
    ensures forall i | 0 <= i < |r.replies| :: |r.replies[i]| == ReplySize
    decreases |input|, 0
  {
    match RunBlock(Legacy, s, input)
    case Incomplete(_) => LegacySession([], PeerClosed)
    case Complete(t, rest) => ServeLegacyBlock(fs, t, rest)
  }

  /** What follows a completed block (lines 188-196): the request is parsed
      and answered only when slot 0 holds a line; the flag and `line_num`
      carry over into the next cycle. */
  function ServeLegacyBlock(fs: FileSystem, t: Assembler, rest: string): (r: LegacySession)
    requires |t.lines| == t.lineNum > 0 && t.lines[|t.lines| - 1] == []
    ensures forall i | 0 <= i < |r.replies| :: |r.replies[i]| == ReplySize
    decreases |rest|, 1
  {
    if t.lines[0] == [] then ServeLegacy(fs, t.(lines := []), rest)
    else
      var block := t.lines[..|t.lines| - 1];
      if !LegacyRequestLineDefined(block[0]) then LegacySession([], UndefinedBehaviour)
      else match ParseLegacy(block)
        case ProcessExit => LegacySession([], ProcessExited)
        case Parsed(_) =>
          match LegacyReply(fs)
          case None => LegacySession([], UndefinedBehaviour)
          case Some(reply) =>
            var next := ServeLegacy(fs, t.(lines := []), rest);
            LegacySession([reply] + next.replies, next.end)
  }

  /** Slot 0 of the line array is NULL, and will be in every array the
      assembler builds from here on, because `line_num` is past it. */
  predicate FirstSlotNull(s: Assembler) {
    s.lineNum > 0 && (s.lines == [] || s.lines[0] == [])
  }

  lemma {:induction false} FirstSlotStaysNull(rev: Revision, s: Assembler, input: string)
    requires FirstSlotNull(s)
    ensures FirstSlotNull(RunBlock(rev, s, input).state)
    decreases |input|
  {
    if input != [] {
      var c := input[0];
      var s' := Step(rev, s, c);
      assert FirstSlotNull(s') by {
        if c == LF && s.cr {
          assert s'.lines[0] == Prefix(s.lines, s.lineNum)[0];
        }
      }
      if !EndsBlock(s, c) {
        FirstSlotStaysNull(rev, s', input[1..]);
      }
    }
  }

  /** Once slot 0 is NULL, nothing is ever answered again, and the
      connection runs until the peer closes it. */
  lemma {:induction false} SilentOnceSlotZeroNull(fs: FileSystem, s: Assembler, input: string)
    requires FirstSlotNull(s)
    ensures ServeLegacy(fs, s, input) == LegacySession([], PeerClosed)
    decreases |input|
  {
    FirstSlotStaysNull(Legacy, s, input);
    match RunBlock(Legacy, s, input)
    case Incomplete(_) =>
    case Complete(t, rest) =>
      assert t.lines[0] == [];
      SilentOnceSlotZeroNull(fs, t.(lines := []), rest);
  }

  /** Whatever the peer sends, the older revision answers at most once. */
  lemma AnswersAtMostOnce(fs: FileSystem, s: Assembler, input: string)
    ensures |ServeLegacy(fs, s, input).replies| <= 1
  {
    match RunBlock(Legacy, s, input)
    case Incomplete(_) =>
    case Complete(t, rest) =>
      SilentOnceSlotZeroNull(fs, t.(lines := []), rest);
  }

  /** The first block on a connection reaches the older driver's guard
      with its own lines from slot 0 on, and the flag still up. */
  lemma LegacyFirstBlock(fs: FileSystem, block: seq<string>, rest: string)
    requires |block| > 0 && forall i | 0 <= i < |block| :: block[i] != [] && CR !in block[i]
    ensures ServeLegacy(fs, Initial, Render(block) + rest)
         == ServeLegacyBlock(fs, Assembler([], true, block + [[]], |block| + 1), rest)
  {
    RunRendered(Legacy, Initial, block, rest);
    assert Prefix([], 0) + block + [[]] == block + [[]];
  }

  /** Two pipelined requests: the older revision answers only the first,
      with its fixed reply, and then waits for the peer to close (the
      current one answers both, by Connection.ServeRendered). */
  lemma TwoRequests(fs: FileSystem, b1: seq<string>, b2: seq<string>)
    requires |b1| > 0 && forall i | 0 <= i < |b1| :: b1[i] != [] && CR !in b1[i]
    requires LegacyRequestLineDefined(b1[0]) && MethodOf(Token(b1[0], 0)).Some?
    requires LegacyIndex in fs
    ensures ServeLegacy(fs, Initial, Render(b1) + Render(b2)) == LegacySession([LegacyReply(fs).value], PeerClosed)
  {
    var t := Assembler([], true, b1 + [[]], |b1| + 1);
    assert ServeLegacy(fs, Initial, Render(b1) + Render(b2)) == ServeLegacyBlock(fs, t, Render(b2)) by {
      LegacyFirstBlock(fs, b1, Render(b2));
    }
    assert ServeLegacy(fs, t.(lines := []), Render(b2)) == LegacySession([], PeerClosed) by {
      SilentOnceSlotZeroNull(fs, t.(lines := []), Render(b2));
    }
    assert t.lines[..|t.lines| - 1] == b1;
  }

  /** A block whose first token is not a method ends the older server's
      process. The current one answers it when its request line is defined:
      with the 400 page when no later space closes a method name either, and
      as a request when the characters before some later space spell one, as
      for "G E T /a HTTP/1.1". Otherwise, as for "FOO / HTTP/1.1", or when
      `handle_req` has undefined behaviour on it, it sends nothing and its
      behaviour is undefined. */
  lemma UnknownMethodExits(fs: FileSystem, block: seq<string>, rest: string)
    requires |block| > 0 && forall i | 0 <= i < |block| :: block[i] != [] && CR !in block[i]
    requires LegacyRequestLineDefined(block[0]) && MethodOf(Token(block[0], 0)).None?
    ensures ServeLegacy(fs, Initial, Render(block) + rest) == LegacySession([], ProcessExited)
    ensures var r := Serve(fs, Initial, Render(block) + rest);
      if !RequestLineDefined(block[0]) || AnswerUndefined(fs, block) then r == Session([], UndefinedBehaviour)
      else r.responses != [] && r.responses[0] == HandleRequest(fs, ParseHttp(block))
  {
    LegacyExitsOnUnknown(fs, block, rest);
    assert Initial == Fresh(0);
    BlockOutcome(fs, 0, block, rest);
  }

  lemma LegacyExitsOnUnknown(fs: FileSystem, block: seq<string>, rest: string)
    requires |block| > 0 && forall i | 0 <= i < |block| :: block[i] != [] && CR !in block[i]
    requires LegacyRequestLineDefined(block[0]) && MethodOf(Token(block[0], 0)).None?
    ensures ServeLegacy(fs, Initial, Render(block) + rest) == LegacySession([], ProcessExited)
  {
    LegacyFirstBlock(fs, block, rest);
    var t := Assembler([], true, block + [[]], |block| + 1);
    assert t.lines[..|t.lines| - 1] == block;
  }
}

=== FILE: parsing.dfy ===
/** `parse_http` in both revisions: the request line is split into method,
    path and version text, and every further line into a header by two
    `strtok(":")` calls. The revisions share the path, version and header
    logic; they differ in how the method token is found and in what an
    unrecognised method does. */
module Parsing {
  import opened Base

  /** `http_method`. The older revision's enum has no `Unknown`. */
  datatype Method = Get | Post | Head | Unknown

  /** `method_str`: the printed name of a method, a single token. */
  function MethodName(m: Method): (r: string)
    ensures r != [] && ' ' !in r
  {
    match m
    case Get => "GET"
    case Post => "POST"
    case Head => "HEAD"
    case Unknown => "INVALID"
  }

  /** The `strcmp` chain against "GET", "POST" and "HEAD": a token names a
      method exactly when it is that method's printed name. */
  function MethodOf(token: string): (r: Option<Method>)
    ensures forall m: Method :: r == Some(m) <==> m != Unknown && token == MethodName(m)
  {
    if token == "GET" then Some(Get)
    else if token == "POST" then Some(Post)
    else if token == "HEAD" then Some(Head)
    else None
  }

  /** Each printed name is read back as its method, and the placeholder
      printed for `Unknown` is not read as any method. */
  lemma MethodNameRoundTrip(m: Method)
    ensures MethodOf(MethodName(m)) == if m == Unknown then None else Some(m)
  {
  }

  // ---------------------------------------------------------------------------
  // Headers
  // ---------------------------------------------------------------------------

  /** `http_header`: name and value are the two `strtok` results, either of
      which may be NULL. */
  datatype Header = Header(name: Option<string>, value: Option<string>)

  /** `strtok(s, ":")` as glibc implements it: skip leading colons; NULL if
      nothing is left; otherwise the token runs to the next colon, and the
      scan resumes just past that colon (or at the end of the string). */
  function Strtok(s: string): (r: (Option<string>, string))
    ensures r.0.Some? ==> r.0.value != [] && ':' !in r.0.value
    ensures r.0.None? <==> forall i | 0 <= i < |s| :: s[i] == ':'
    ensures r.0.None? ==> r.1 == []
    ensures |r.1| < |s| || r.1 == []
    decreases |s|
  {
    if s == [] then (None, [])
    else if s[0] == ':' then Strtok(s[1..])
    else match SplitAt(s, ':')
      case None => (Some(s), [])
      case Some((token, after)) => (Some(token), after)
  }

  /** The number of colons `strtok` skips before its token. */
  function LeadingColons(s: string): (k: nat)
    ensures k <= |s| && forall j | 0 <= j < k :: s[j] == ':'
    ensures k < |s| ==> s[k] != ':'
    decreases |s|
  {
    if s != [] && s[0] == ':' then 1 + LeadingColons(s[1..]) else 0
  }

  /** Where `strtok` finds its token: right after the leading colons,
      running to the end of the string or to the colon the scan resumes
      after. */
  lemma {:induction false} StrtokFindsToken(s: string)
    ensures var r := Strtok(s); var k := LeadingColons(s);
      r.0.Some? ==> (s[k..] == r.0.value && r.1 == []) || s[k..] == r.0.value + [':'] + r.1
    decreases |s|
  {
    if s != [] {
      if s[0] == ':' {
        StrtokFindsToken(s[1..]);
        assert s[1..][LeadingColons(s[1..])..] == s[LeadingColons(s)..];
      } else {
        assert s[0..] == s;
      }
    }
  }

  /** Lines 328-329 (and 295-296 of the older revision): the name is the
      first token, the value the second, of the same line. */
  function SplitHeader(line: string): (h: Header)
    ensures h.name.None? ==> h.value.None?
  {
    var (name, rest) := Strtok(line);
    var (value, _) := Strtok(rest);
    Header(name, value)
  }

  function ParseHeaders(lines: seq<string>): (hs: seq<Header>)
    ensures |hs| == |lines|
    ensures forall i | 0 <= i < |lines| :: hs[i] == SplitHeader(lines[i])
  {
    seq(|lines|, i requires 0 <= i < |lines| => SplitHeader(lines[i]))
  }

  /** A header the two-token split can carry unchanged: a non-empty name and
      an optional non-empty value, neither holding a colon. Spaces are
      allowed anywhere; the parser keeps them. */
  predicate WellFormedHeader(h: Header) {
    && h.name.Some? && h.name.value != [] && ':' !in h.name.value
    && (h.value.Some? ==> h.value.value != [] && ':' !in h.value.value)
  }

  /** The header line a client would send for h. */
  function RenderHeader(h: Header): string
    requires WellFormedHeader(h)
  {
    if h.value.Some? then h.name.value + ":" + h.value.value else h.name.value
  }

  /** Splitting a rendered header gives back the header. */
  lemma HeaderRoundTrip(h: Header)
    requires WellFormedHeader(h)
    ensures SplitHeader(RenderHeader(h)) == h
  {
    var n := h.name.value;
    assert n[0] != ':';
    if h.value.Some? {
      var v := h.value.value;
      SplitAtFirst(n, ':', v);
      assert n + ":" + v == n + [':'] + v;
      assert v[0] != ':';
      assert SplitAt(v, ':') == None;
    } else {
      assert SplitAt(n, ':') == None;
    }
  }

  /** The value ends at the second colon: "Host: example.com:8080" has the
      value " example.com". */
  lemma ValueCutAtColon(name: string, value: string, more: string)
    requires WellFormedHeader(Header(Some(name), Some(value)))
    ensures SplitHeader(name + ":" + value + ":" + more) == Header(Some(name), Some(value))
  {
    assert name[0] != ':' && value[0] != ':';
    assert name + ":" + value + ":" + more == name + [':'] + (value + [':'] + more);
    SplitAtFirst(name, ':', value + [':'] + more);
    SplitAtFirst(value, ':', more);
  }

  /** Colons are skipped before the value too: "n::v" reads as name "n" and
      value "v", and "n:" as name "n" with a NULL value. */
  lemma EmptyFieldsSkipped(name: string, value: string)
    requires WellFormedHeader(Header(Some(name), Some(value)))
    ensures SplitHeader(name + "::" + value) == Header(Some(name), Some(value))
    ensures SplitHeader(name + ":") == Header(Some(name), None)
  {
    var line := name + [':'] + ([':'] + value);
    assert name + "::" + value == line;
    assert name[0] != ':' && line[0] == name[0];
    SplitAtFirst(name, ':', [':'] + value);
    assert Strtok(line) == (Some(name), [':'] + value);
    assert ([':'] + value)[1..] == value;
    assert value[0] != ':' && SplitAt(value, ':') == None;
    assert Strtok([':'] + value) == Strtok(value) == (Some(value), []);
    assert name + ":" == name + [':'] + [];
    SplitAtFirst(name, ':', []);
  }

  /** Leading colons are skipped before the name. */
  lemma LeadingColonSkipped(line: string)
    ensures SplitHeader([':'] + line) == SplitHeader(line)
  {
    assert ([':'] + line)[1..] == line;
  }

  // ---------------------------------------------------------------------------
  // The request line
  // ---------------------------------------------------------------------------

  /** The characters from index i up to the next space or the end of the
      line: what the accumulating loops of `parse_http` collect. */
  function Token(line: string, i: nat): (t: string)
    requires i <= |line|
    ensures i + |t| <= |line| && t == line[i..i + |t|] && ' ' !in t
    ensures i + |t| < |line| ==> line[i + |t|] == ' '
    decreases |line| - i
  {
    if i == |line| || line[i] == ' ' then [] else [line[i]] + Token(line, i + 1)
  }

  /** How the first loop of the current `parse_http` ends. */
  datatype MethodScan =
    | Recognised(httpMethod: Method, length: nat)  // `break` on a method name; length is `method_length`
    | Unrecognised(length: nat)                // some space was seen, none ended a method name; length is `strlen(acc)` after the loop
    | NoSpace                                  // no space at all: method and status stay unset

  /** The first loop of the current revision (lines 243-277). Non-space
      characters are accumulated in `acc` across spaces; at every space
      `acc` is compared with the method names, and a mismatch sets status
      400 without leaving the loop. */
  function ScanMethod(line: string, i: nat, acc: string, rejected: bool): (r: MethodScan)
    requires i <= |line| && |acc| <= i
    ensures r.Recognised? ==> r.httpMethod != Unknown && r.length < |line|
    ensures r.NoSpace? ==> !rejected && forall j | i <= j < |line| :: line[j] != ' '
    decreases |line| - i
  {
    if i == |line| then (if rejected then Unrecognised(|acc|) else NoSpace)
    else if line[i] == ' ' then
      match MethodOf(acc)
      case Some(m) => Recognised(m, |acc|)
      case None => ScanMethod(line, i + 1, acc, true)
    else ScanMethod(line, i + 1, acc + [line[i]], rejected)
  }

  function ScanRequestLine(line: string): MethodScan {
    ScanMethod(line, 0, [], false)
  }

  /** The path loop and the version offset, given `method_length`: the path
      must be non-empty (else `acc` is NULL when stored), must end at a space
      (else `req->path` is never set), and the offset handed to `atof` must
      stay inside the line. */
  predicate TargetDefined(line: string, methodLength: nat) {
    methodLength + 1 <= |line|
    && var path := Token(line, methodLength + 1);
       |path| > 0 && methodLength + |path| + 7 <= |line|
  }

  /** The second loop: the path runs from just past the method to the next
      space, leading slash included. */
  function PathAt(line: string, methodLength: nat): string
    requires methodLength + 1 <= |line|
  {
    Token(line, methodLength + 1)
  }

  /** `&initial[method_length + path_length + 7]`: the text five characters
      past the space after the path, that is just past an unchecked
      "HTTP/". It is kept as text; the float `atof` makes of it is not
      modelled. */
  function VersionAt(line: string, methodLength: nat): string
    requires TargetDefined(line, methodLength)
  {
    line[methodLength + |PathAt(line, methodLength)| + 7..]
  }

  /** The current revision's request line has defined behaviour: it does
      not start with a space (`strcmp` on a NULL `acc`), it has a space
      (else `method` is read uninitialised), and the path loop, started one
      past `method_length`, finds a well-placed path and version. For an
      unrecognised method `method_length` counts every non-space character
      of the line (UnrecognisedLength), so an ordinary line such as
      "FOO / HTTP/1.1" leaves `req->path` unassigned. */
  predicate RequestLineDefined(line: string) {
    && |line| > 0 && line[0] != ' '
    && match ScanRequestLine(line)
       case NoSpace => false
       case Unrecognised(length) => TargetDefined(line, length)
       case Recognised(_, length) => TargetDefined(line, length)
  }

  /** `http_request` of the current revision. */
  datatype Request = Request(
    httpMethod: Method,
    path: string,
    version: string,
    headers: seq<Header>,
    status: nat,
    contentLength: nat)

  /** The current `parse_http` on the `line_num` lines of one block (the
      empty terminating line excluded). Path and version are read at the
      offsets `method_length` gives, whether or not the method was
      recognised; for status 400 the resolver then replaces the path. */
  function ParseHttp(lines: seq<string>): (req: Request)
    requires |lines| > 0 && RequestLineDefined(lines[0])
    ensures |req.headers| == |lines| - 1
    ensures forall i | 0 <= i < |req.headers| :: req.headers[i] == SplitHeader(lines[i + 1])
    ensures req.contentLength == 0
    ensures req.status == (if req.httpMethod == Unknown then 400 else 500)
    ensures |req.path| > 0 && ' ' !in req.path
    ensures var scan := ScanRequestLine(lines[0]);
      && req.httpMethod == (if scan.Recognised? then scan.httpMethod else Unknown)
      && req.path == Token(lines[0], scan.length + 1)
      && scan.length + |req.path| + 7 <= |lines[0]|
      && req.version == lines[0][scan.length + |req.path| + 7..]
  {
    var line := lines[0];
    var headers := ParseHeaders(lines[1..]);
    var scan := ScanRequestLine(line);
    var methodLength := scan.length;
    var path, version := PathAt(line, methodLength), VersionAt(line, methodLength);
    if scan.Recognised? then Request(scan.httpMethod, path, version, headers, 500, 0)
    else Request(Unknown, path, version, headers, 400, 0)
  }

  /** The request line a client sends. */
  function RequestLine(m: Method, path: string, version: string): string {
    MethodName(m) + " " + path + " HTTP/" + version
  }

  /** When the first token is a method name the loop stops at the first
      space, exactly as the older revision's loop does. */
  lemma {:induction false} ScanFirstToken(line: string, i: nat, m: Method)
    requires i <= |Token(line, 0)| && MethodOf(Token(line, 0)) == Some(m)
    requires |Token(line, 0)| < |line|
    ensures ScanMethod(line, i, line[..i], false) == Recognised(m, |Token(line, 0)|)
    decreases |line| - i
  {
    var tok := Token(line, 0);
    if i < |tok| {
      assert line[i] == tok[i] && line[i] != ' ';
      assert line[..i] + [line[i]] == line[..i + 1];
      ScanFirstToken(line, i + 1, m);
    } else {
      assert line[..i] == tok;
    }
  }

  /** A first token that is not a method name sets status 400, but the loop
      carries on: if no later space closes a method name in the accumulated
      characters, the method stays unknown. */
  lemma {:induction false} ScanNeverRecognised(line: string, i: nat, acc: string, rejected: bool)
    requires i <= |line| && |acc| <= i
    requires forall j | i <= j < |line| && line[j] == ' ' :: MethodOf(acc + Squeeze(line[i..j])).None?
    requires rejected || exists j | i <= j < |line| :: line[j] == ' '
    ensures ScanMethod(line, i, acc, rejected).Unrecognised?
    decreases |line| - i
  {
    if i < |line| {
      ScanStep(line, i, acc, rejected);
      var next := if line[i] == ' ' then acc else acc + [line[i]];
      ScanNeverRecognised(line, i + 1, next, rejected || line[i] == ' ');
    }
  }

  /** One step of the scan keeps the hypotheses of ScanNeverRecognised. */
  lemma ScanStep(line: string, i: nat, acc: string, rejected: bool)
    requires i < |line| && |acc| <= i
    requires forall j | i <= j < |line| && line[j] == ' ' :: MethodOf(acc + Squeeze(line[i..j])).None?
    requires rejected || exists j | i <= j < |line| :: line[j] == ' '
    ensures var next := if line[i] == ' ' then acc else acc + [line[i]];
      var rej := rejected || line[i] == ' ';
      && |next| <= i + 1
      && (forall j | i + 1 <= j < |line| && line[j] == ' ' :: MethodOf(next + Squeeze(line[i + 1..j])).None?)
      && (rej || exists j | i + 1 <= j < |line| :: line[j] == ' ')
      && ScanMethod(line, i, acc, rejected) == ScanMethod(line, i + 1, next, rej)
  {
    NothingRecognisedAhead(line, i, acc);
    if line[i] == ' ' {
      assert MethodOf(acc).None? by {
        assert line[i..i] == [];
        assert acc + Squeeze(line[i..i]) == acc;
      }
    } else if !rejected {
      var j :| i <= j < |line| && line[j] == ' ';
      assert i + 1 <= j;
    }
  }

  /** One step of the scan moves the character at i into the accumulated
      text (or drops it, if it is a space) without changing what the later
      spaces see. */
  lemma NothingRecognisedAhead(line: string, i: nat, acc: string)
    requires i < |line|
    requires forall j | i <= j < |line| && line[j] == ' ' :: MethodOf(acc + Squeeze(line[i..j])).None?
    ensures var next := if line[i] == ' ' then acc else acc + [line[i]];
      forall j | i + 1 <= j < |line| && line[j] == ' ' :: MethodOf(next + Squeeze(line[i + 1..j])).None?
  {
    var next := if line[i] == ' ' then acc else acc + [line[i]];
    forall j | i + 1 <= j < |line| && line[j] == ' '
      ensures MethodOf(next + Squeeze(line[i + 1..j])).None?
    {
      var w := line[i..j];
      assert w[0] == line[i] && w[1..] == line[i + 1..j];
      assert Squeeze(w) == (if line[i] == ' ' then [] else [line[i]]) + Squeeze(w[1..]);
      assert acc + Squeeze(w) == next + Squeeze(line[i + 1..j]);
    }
  }

  /** The line with its spaces removed. */
  function Squeeze(s: string): (r: string)
    ensures |r| <= |s|
  {
    if s == [] then [] else (if s[0] == ' ' then [] else [s[0]]) + Squeeze(s[1..])
  }

  /** Text without spaces is left as it is. */
  lemma {:induction false} SqueezeNoSpace(s: string)
    requires ' ' !in s
    ensures Squeeze(s) == s
    decreases |s|
  {
    if s != [] {
      assert s[0] != ' ' && ' ' !in s[1..];
      SqueezeNoSpace(s[1..]);
    }
  }

  /** A scan that never breaks has accumulated every non-space character:
      `method_length` is the number of non-space characters of the line. */
  lemma {:induction false} UnrecognisedLength(line: string, i: nat, acc: string, rejected: bool)
    requires i <= |line| && |acc| <= i
    ensures var r := ScanMethod(line, i, acc, rejected);
      r.Unrecognised? ==> r.length == |acc| + |Squeeze(line[i..])|
    decreases |line| - i
  {
    if i < |line| {
      var next := if line[i] == ' ' then acc else acc + [line[i]];
      assert line[i..][0] == line[i] && line[i..][1..] == line[i + 1..];
      UnrecognisedLength(line, i + 1, next, rejected || line[i] == ' ');
    } else {
      assert line[i..] == [];
    }
  }

  /** A request line as a client writes it parses to its method, path and
      version text, with status 500 and the headers in line order. */
  lemma ParseRendered(m: Method, path: string, version: string, headers: seq<Header>)
    requires m != Unknown && path != [] && ' ' !in path
    requires forall i | 0 <= i < |headers| :: WellFormedHeader(headers[i])
    ensures RequestLineDefined(RequestLine(m, path, version))
    ensures ParseHttp([RequestLine(m, path, version)] + RenderHeaders(headers))
         == Request(m, path, version, headers, 500, 0)
  {
    var line := RequestLine(m, path, version);
    var name := MethodName(m);
    assert ScanRequestLine(line) == Recognised(m, |name|) && TargetDefined(line, |name|)
        && PathAt(line, |name|) == path && VersionAt(line, |name|) == version by {
      TokenOfRequestLine(m, path, version);
      ScanFirstToken(line, 0, m);
      assert line[..0] == [];
    }
    var lines := [line] + RenderHeaders(headers);
    assert ParseHeaders(lines[1..]) == headers by {
      assert lines[1..] == RenderHeaders(headers);
      forall i | 0 <= i < |headers|
        ensures SplitHeader(lines[1..][i]) == headers[i]
      {
        HeaderRoundTrip(headers[i]);
      }
    }
  }

  /** The tokens of a rendered request line. */
  lemma TokenOfRequestLine(m: Method, path: string, version: string)
    requires m != Unknown && path != [] && ' ' !in path
    ensures var line := RequestLine(m, path, version);
      && Token(line, 0) == MethodName(m)
      && Token(line, |MethodName(m)| + 1) == path
      && TargetDefined(line, |MethodName(m)|)
      && VersionAt(line, |MethodName(m)|) == version
  {
    var name := MethodName(m);
    var tail := " HTTP/" + version;
    assert RequestLine(m, path, version) == name + (" " + (path + tail));
    assert tail[0] == ' ' && tail[6..] == version;
    TokensOf(name, path, tail);
  }

  /** The same for any first token and path without spaces, and any text
      after the path that starts with a space: the version offset lands six
      characters into that text. */
  lemma TokensOf(name: string, path: string, tail: string)
    requires name != [] && ' ' !in name && path != [] && ' ' !in path
    requires |tail| >= 6 && tail[0] == ' '
    ensures var line := name + (" " + (path + tail));
      && Token(line, 0) == name
      && Token(line, |name| + 1) == path
      && TargetDefined(line, |name|)
      && VersionAt(line, |name|) == tail[6..]
  {
    var line := name + (" " + (path + tail));
    TokenStops(name, " " + (path + tail));
    PathToken(name, path, tail);
    assert PathAt(line, |name|) == path;
    VersionText(name, path, tail);
  }

  /** The token after the first space of such a line is the path. */
  lemma PathToken(name: string, path: string, tail: string)
    requires ' ' !in path && (tail == [] || tail[0] == ' ')
    ensures Token(name + (" " + (path + tail)), |name| + 1) == path
  {
    var spaced := " " + (path + tail);
    assert spaced[1..] == path + tail;
    TokenAfterFirst(name, spaced, path, tail);
  }

  /** The token one character into the part after `name` is the path that
      follows that character. */
  lemma TokenAfterFirst(name: string, spaced: string, path: string, tail: string)
    requires |spaced| > 0 && spaced[1..] == path + tail
    requires ' ' !in path && (tail == [] || tail[0] == ' ')
    ensures Token(name + spaced, |name| + 1) == path
  {
    TokenShift(name, spaced, 1);
    assert spaced[..1] + spaced[1..] == spaced;
    TokenShift(spaced[..1], spaced[1..], 0);
    TokenStops(path, tail);
  }

  /** The text six characters past the path's end is the tail's. */
  lemma VersionText(name: string, path: string, tail: string)
    requires |tail| >= 6
    ensures (name + (" " + (path + tail)))[|name| + |path| + 7..] == tail[6..]
  {
    DropPast(name, " " + (path + tail), |path| + 7);
    DropPast(" ", path + tail, |path| + 6);
    DropPast(path, tail, 6);
  }

  /** Dropping past the first part of a concatenation drops from the second. */
  lemma DropPast(a: string, b: string, k: nat)
    requires k <= |b|
    ensures (a + b)[|a| + k..] == b[k..]
  {
  }

  /** A token read at an offset into a longer line is read from the part
      that starts there. */
  lemma {:induction false} TokenShift(p: string, s: string, i: nat)
    requires i <= |s|
    ensures Token(p + s, |p| + i) == Token(s, i)
    decreases |s| - i
  {
    if i < |s| {
      assert (p + s)[|p| + i] == s[i];
      TokenShift(p, s, i + 1);
    }
  }

  /** A token ends at the space that follows it. */
  lemma TokenStops(a: string, b: string)
    requires ' ' !in a && (b == [] || b[0] == ' ')
    ensures Token(a + b, 0) == a
  {
    TokenIsRun(a + b, 0, |a|);
    assert (a + b)[0..|a|] == a;
  }

  /** Token returns the run of non-space characters that a space or the end
      of the line closes. */
  lemma {:induction false} TokenIsRun(line: string, i: nat, n: nat)
    requires i + n <= |line|
    requires forall j | i <= j < i + n :: line[j] != ' '
    requires i + n == |line| || line[i + n] == ' '
    ensures Token(line, i) == line[i..i + n]
    decreases n
  {
    if n > 0 {
      TokenIsRun(line, i + 1, n - 1);
      assert line[i..i + n] == [line[i]] + line[i + 1..i + n];
    }
  }

  function RenderHeaders(headers: seq<Header>): (lines: seq<string>)
    requires forall i | 0 <= i < |headers| :: WellFormedHeader(headers[i])
    ensures |lines| == |headers|
    ensures forall i | 0 <= i < |headers| :: lines[i] == RenderHeader(headers[i])
  {
    seq(|headers|, i requires 0 <= i < |headers| => RenderHeader(headers[i]))
  }

  // ---------------------------------------------------------------------------
  // The older revision
  // ---------------------------------------------------------------------------

  /** `http_request` of the older revision: no status, no content length. */
  datatype LegacyRequest = LegacyRequest(httpMethod: Method, path: string, version: string, headers: seq<Header>)

  /** The older parser either returns a request or calls `error`, which
      ends the whole process. */
  datatype LegacyParse = Parsed(request: LegacyRequest) | ProcessExit

  /** The older request line has defined behaviour: no leading space, some
      space, and, when the first token is a method, a well-placed path and
      version (the same conditions as the current revision). */
  predicate LegacyRequestLineDefined(line: string) {
    && |line| > 0 && line[0] != ' '
    && var token := Token(line, 0);
       && |token| < |line|
       && (MethodOf(token).Some? ==> TargetDefined(line, |token|))
  }

  /** The older `parse_http` (lines 211-304): the first space decides; any
      token but GET, POST or HEAD calls `error` and exits. */
  function ParseLegacy(lines: seq<string>): (r: LegacyParse)
    requires |lines| > 0 && LegacyRequestLineDefined(lines[0])
    ensures r.ProcessExit? <==> MethodOf(Token(lines[0], 0)).None?
    ensures r.Parsed? ==> r.request.httpMethod != Unknown && |r.request.headers| == |lines| - 1
  {
    var line := lines[0];
    var token := Token(line, 0);
    match MethodOf(token)
    case None => ProcessExit
    case Some(m) =>
      Parsed(LegacyRequest(m, PathAt(line, |token|), VersionAt(line, |token|), ParseHeaders(lines[1..])))
  }

  /** Where the older parser does not exit, both revisions read the same
      method, path, version and headers from the same lines. */
  lemma ParsersAgree(lines: seq<string>)
    requires |lines| > 0 && LegacyRequestLineDefined(lines[0])
    requires MethodOf(Token(lines[0], 0)).Some?
    ensures RequestLineDefined(lines[0])
    ensures var req := ParseHttp(lines);
      ParseLegacy(lines) == Parsed(LegacyRequest(req.httpMethod, req.path, req.version, req.headers))
  {
    var line := lines[0];
    var m := MethodOf(Token(line, 0)).value;
    ScanFirstToken(line, 0, m);
    assert line[..0] == [];
  }

  /** "FOO / HTTP/1.1": the older parser exits on the unknown first token.
      The current scan never breaks, so `method_length` is 12, the path loop
      starts at the final "1" and never meets a space: `req->path` is left
      unassigned and the line has no defined behaviour. */
  lemma UnknownMethod(line: string)
    requires line == "FOO / HTTP/1.1"
    ensures ScanRequestLine(line) == Unrecognised(12)
    ensures !RequestLineDefined(line)
    ensures LegacyRequestLineDefined(line)
    ensures ParseLegacy([line]) == ProcessExit
  {
    UnknownScan(line);
    assert Token(line, 13) == "1" by {
      TokenIsRun(line, 13, 1);
      assert line[13..14] == "1";
    }
    TokenIsRun(line, 0, 3);
    assert line[0..3] == "FOO";
  }

  /** The scan of "FOO / HTTP/1.1" finds no method at either space and
      accumulates the line's twelve non-space characters. */
  lemma UnknownScan(line: string)
    requires line == "FOO / HTTP/1.1"
    ensures ScanRequestLine(line) == Unrecognised(12)
  {
    assert forall j | 6 <= j < |line| :: line[j] != ' ';
    assert ScanMethod(line, 6, "FOO/", true) == Unrecognised(12) by {
      ScanNeverRecognised(line, 6, "FOO/", true);
      UnrecognisedLength(line, 6, "FOO/", true);
      SqueezeNoSpace(line[6..]);
    }
    assert MethodOf("FOO").None? && MethodOf("FOO/").None?;
    assert line[5] == ' ';
    assert ScanMethod(line, 5, "FOO/", true) == ScanMethod(line, 6, "FOO/", true);
    assert line[4] == '/' && "FOO" + [line[4]] == "FOO/";
    assert ScanMethod(line, 4, "FOO", true) == ScanMethod(line, 5, "FOO/", true);
    assert line[3] == ' ';
    assert ScanMethod(line, 3, "FOO", false) == ScanMethod(line, 4, "FOO", true);
    assert line[2] == 'O' && "FO" + [line[2]] == "FOO";
    assert ScanMethod(line, 2, "FO", false) == ScanMethod(line, 3, "FOO", false);
    assert line[1] == 'O' && "F" + [line[1]] == "FO";
    assert ScanMethod(line, 1, "F", false) == ScanMethod(line, 2, "FO", false);
    assert line[0] == 'F' && [] + [line[0]] == "F";
    assert ScanMethod(line, 0, [], false) == ScanMethod(line, 1, "F", false);
  }

  /** An unknown method is parsed with status 400 only when the line has
      enough spaces after it: in "A B C       " `method_length` is 3, so the
      path loop reads "C" and the version offset lands on the last space. */
  lemma SpacedUnknownMethod(line: string)
    requires line == "A B C       "
    ensures RequestLineDefined(line)
    ensures ParseHttp([line]) == Request(Unknown, "C", " ", [], 400, 0)
  {
    SpacedUnknownScan(line);
    assert Token(line, 4) == "C" by {
      TokenIsRun(line, 4, 1);
      assert line[4..5] == "C";
    }
    assert line[11..] == " ";
  }

  /** The scan of "A B C       " rejects "A", "AB" and then "ABC" at every
      later space. */
  lemma SpacedUnknownScan(line: string)
    requires line == "A B C       "
    ensures ScanRequestLine(line) == Unrecognised(3)
  {
    assert MethodOf("ABC").None? && MethodOf("AB").None? && MethodOf("A").None?;
    assert forall i | 5 <= i < |line| :: line[i] == ' ';
    assert ScanMethod(line, 11, "ABC", true) == Unrecognised(3);
    assert ScanMethod(line, 10, "ABC", true) == ScanMethod(line, 11, "ABC", true);
    assert ScanMethod(line, 9, "ABC", true) == ScanMethod(line, 10, "ABC", true);
    assert ScanMethod(line, 8, "ABC", true) == ScanMethod(line, 9, "ABC", true);
    assert ScanMethod(line, 7, "ABC", true) == ScanMethod(line, 8, "ABC", true);
    assert ScanMethod(line, 6, "ABC", true) == ScanMethod(line, 7, "ABC", true);
    assert ScanMethod(line, 5, "ABC", true) == ScanMethod(line, 6, "ABC", true);
    assert line[4] == 'C' && "AB" + [line[4]] == "ABC";
    assert ScanMethod(line, 4, "AB", true) == ScanMethod(line, 5, "ABC", true);
    assert line[3] == ' ';
    assert ScanMethod(line, 3, "AB", true) == ScanMethod(line, 4, "AB", true);
    assert line[2] == 'B' && "A" + [line[2]] == "AB";
    assert ScanMethod(line, 2, "A", true) == ScanMethod(line, 3, "AB", true);
    assert line[1] == ' ';
    assert ScanMethod(line, 1, "A", false) == ScanMethod(line, 2, "A", true);
    assert line[0] == 'A' && [] + [line[0]] == "A";
    assert ScanMethod(line, 0, [], false) == ScanMethod(line, 1, "A", false);
  }

  /** The current scan accumulates across spaces: "G E T /a HTTP/1.1" is
      read as GET with path "T" and version text "TP/1.1", while the older
      parser exits on its first token "G". */
  lemma SpacedMethod(line: string)
    requires line == "G E T /a HTTP/1.1"
    ensures RequestLineDefined(line)
    ensures ParseHttp([line]) == Request(Get, "T", "TP/1.1", [], 500, 0)
    ensures LegacyRequestLineDefined(line)
    ensures ParseLegacy([line]) == ProcessExit
  {
    SpacedScan(line);
    TokenIsRun(line, 4, 1);
    TokenIsRun(line, 0, 1);
    assert line[4..5] == "T" && line[0..1] == "G";
    assert line[11..] == "TP/1.1";
  }

  /** The scan of "G E T /a HTTP/1.1" rejects "G" and "GE" and stops at
      the third space with "GET". */
  lemma SpacedScan(line: string)
    requires line == "G E T /a HTTP/1.1"
    ensures ScanRequestLine(line) == Recognised(Get, 3)
  {
    assert line[5] == ' ' && MethodOf("GET") == Some(Get);
    assert ScanMethod(line, 5, "GET", true) == Recognised(Get, 3);
    assert line[4] == 'T' && "GE" + [line[4]] == "GET";
    assert ScanMethod(line, 4, "GE", true) == ScanMethod(line, 5, "GET", true);
    assert line[3] == ' ' && MethodOf("GE").None?;
    assert ScanMethod(line, 3, "GE", true) == ScanMethod(line, 4, "GE", true);
    assert line[2] == 'E' && "G" + [line[2]] == "GE";
    assert ScanMethod(line, 2, "G", true) == ScanMethod(line, 3, "GE", true);
    assert line[1] == ' ' && MethodOf("G").None?;
    assert ScanMethod(line, 1, "G", false) == ScanMethod(line, 2, "G", true);
    assert line[0] == 'G' && [] + [line[0]] == "G";
    assert ScanMethod(line, 0, [], false) == ScanMethod(line, 1, "G", false);
  }
}

=== FILE: resolution.dfy ===
/** `get_file`: maps a parsed request onto a file, applying the bad-request,
    traversal and not-found fallbacks in the order the source tests them.
    The filesystem is a map from the path handed to `fopen` to the file's
    bytes; `fopen` succeeds exactly when the path is a key. */
module Resolution {
  import opened Base
  import opened Parsing

  /** `ftell`'s result is stored in an `int`, so files are at most
      2^31 - 1 bytes long. */
  const IntMax: int := 0x7fff_ffff

  type FileSystem = fs: map<string, seq<byte>> | forall path | path in fs :: |fs[path]| <= IntMax

  const BadRequestPage: string := "pages/400.html"
  const ForbiddenPage: string := "pages/403.html"
  const NotFoundPage: string := "pages/404.html"
  const IndexPage: string := "pages/index.html"

  /** The file at path, when `fopen(path, "rb")` succeeds. */
  function Lookup(fs: FileSystem, path: string): Option<seq<byte>> {
    if path in fs then Some(fs[path]) else None
  }

  /** The request after `get_file`, with the buffer it returned (None for
      NULL). */
  datatype Resolved = Resolved(request: Request, file: Option<seq<byte>>)

  /** `get_file` reads `req->path[0]` through `strcspn`; an empty path would
      make it step past the terminator. Only a 400 request may carry one,
      because its path is replaced first. */
  predicate Resolvable(req: Request) {
    req.status == 400 || |req.path| > 0
  }

  /** The path after the 400 substitution, with exactly one leading slash
      removed. */
  function Stripped(req: Request): string
    requires Resolvable(req)
  {
    var path := if req.status == 400 then BadRequestPage else req.path;
    if path[0] == '/' then path[1..] else path
  }

  /** The stripped path contains "../" (`strstr`). */
  predicate Traversal(req: Request)
    requires Resolvable(req)
  {
    Contains(Stripped(req), "../")
  }

  /** The path `fopen` is tried on first when there is no traversal: the
      index page for an empty path, the stripped path otherwise. */
  function Target(req: Request): string
    requires Resolvable(req)
  {
    if Stripped(req) == [] then IndexPage else Stripped(req)
  }

  /** A successful read: `content_length` becomes the file size. */
  function Loaded(req: Request, file: seq<byte>): Resolved {
    Resolved(req.(contentLength := |file|), Some(file))
  }

  /** `get_file` (lines 403-464). The three cases below are the whole
      decision table: a traversal is answered from the 403 page alone; else
      the target is served if it exists; else the 404 page, if it exists.
      Only the status, the path and the content length ever change. */
  function Resolve(fs: FileSystem, req: Request): (r: Resolved)
    requires Resolvable(req)
    ensures r.request.(status := req.status, path := req.path, contentLength := req.contentLength) == req
    ensures r.file.Some? ==> r.request.contentLength == |r.file.value|
    ensures r.file.None? ==> r.request.contentLength == req.contentLength
    ensures Traversal(req) ==>
      r.request.status == 403 && r.request.path == ForbiddenPage && r.file == Lookup(fs, ForbiddenPage)
    ensures !Traversal(req) && Target(req) in fs ==>
      r.request.status == req.status && r.file == Some(fs[Target(req)])
      && r.request.path == (if Stripped(req) == [] then IndexPage
                            else if req.status == 400 then BadRequestPage else req.path)
    ensures !Traversal(req) && Target(req) !in fs ==>
      r.request.status == 404 && r.request.path == NotFoundPage && r.file == Lookup(fs, NotFoundPage)
  {
    var req := if req.status == 400 then req.(path := BadRequestPage) else req;
    var path := if req.path[0] == '/' then req.path[1..] else req.path;
    if Contains(path, "../") then
      var req := req.(status := 403, path := ForbiddenPage);
      if ForbiddenPage in fs then Loaded(req, fs[ForbiddenPage]) else Resolved(req, None)
    else
      var (req, key) := if path == [] then (req.(path := IndexPage), IndexPage) else (req, path);
      if key in fs then Loaded(req, fs[key])
      else
        var req := req.(status := 404, path := NotFoundPage);
        if NotFoundPage in fs then Loaded(req, fs[NotFoundPage]) else Resolved(req, None)
  }

  /** Line 439 frees `req->path` once the first `fopen` has failed. When
      that path is a literal `get_file` assigned itself, the 400 page (line
      408) or the index page (line 431), `free` of a string literal is
      undefined; glibc aborts the process. */
  predicate FreesLiteral(fs: FileSystem, req: Request)
    requires Resolvable(req)
  {
    !Traversal(req) && Target(req) !in fs && (req.status == 400 || Stripped(req) == [])
  }

  /** For a request as `parse_http` leaves it, a literal is freed exactly
      when it is resolved to 404 after its path had been replaced by a page
      name: the 400 page, or the index page for an empty path. */
  lemma FreesLiteralExactly(fs: FileSystem, req: Request)
    requires Resolvable(req) && req.status in {400, 500}
    ensures FreesLiteral(fs, req) <==>
      Resolve(fs, req).request.status == 404 && (req.status == 400 || Stripped(req) == [])
  {
  }

  /** "GET / HTTP/1.1" with no index page frees the literal index path. */
  lemma MissingIndexFreesLiteral(fs: FileSystem, req: Request)
    requires req.status == 500 && req.path == "/" && IndexPage !in fs
    ensures FreesLiteral(fs, req)
  {
    assert Stripped(req) == [];
  }

  /** A bad request with no 400 page frees the literal 400 path. */
  lemma MissingBadRequestPageFreesLiteral(fs: FileSystem, req: Request)
    requires req.status == 400 && BadRequestPage !in fs
    ensures FreesLiteral(fs, req)
  {
    assert Stripped(req) == BadRequestPage;
    BadRequestPageIsSafe();
  }

  /** A request's own non-empty path is heap memory, so freeing it is
      defined: a request that is not a bad request and names a path never
      frees a literal. */
  lemma OwnPathFreed(fs: FileSystem, req: Request)
    requires req.status != 400 && Resolvable(req) && Stripped(req) != []
    ensures !FreesLiteral(fs, req)
  {
  }

  /** A traversal is refused without ever looking at the requested file:
      two filesystems that agree on the 403 page give the same result. */
  lemma TraversalNeverOpensTarget(fs1: FileSystem, fs2: FileSystem, req: Request)
    requires Resolvable(req) && Traversal(req)
    requires Lookup(fs1, ForbiddenPage) == Lookup(fs2, ForbiddenPage)
    ensures Resolve(fs1, req) == Resolve(fs2, req)
  {
  }

  /** A bad request is answered with the 400 page whatever it asked for. */
  lemma BadRequestIgnoresPath(fs: FileSystem, req: Request, path: string)
    requires req.status == 400
    ensures Resolve(fs, req) == Resolve(fs, req.(path := path))
  {
  }

  /** Only one leading slash is removed, so "//etc/passwd" is opened as the
      absolute path "/etc/passwd"; the traversal check does not catch it. */
  lemma DoubleSlashOpensAbsolutePath(fs: FileSystem, req: Request)
    requires req.status == 500 && req.path == "//etc/passwd"
    requires "/etc/passwd" in fs
    ensures Resolve(fs, req).file == Some(fs["/etc/passwd"])
    ensures Resolve(fs, req).request.status == 500
  {
    assert Stripped(req) == "/etc/passwd";
    MissingCharNotContained("/etc/passwd", "../", 0);
  }

  /** A name whose only '.' follows its last '/' has no "../". */
  lemma DotOnlyInName(stem: string, ext: string)
    requires '.' !in stem && '/' !in ext
    ensures !Contains(stem + "." + ext, "../")
  {
    var s := stem + "." + ext;
    forall i | 0 <= i <= |s| ensures !OccursAt(s, "../", i) {
      if i + 3 <= |s| {
        var w := s[i..i + 3];
        if i < |stem| {
          assert w[0] == s[i] == stem[i] != '.';
        } else {
          assert w[2] == s[i + 2] == ext[i + 1 - |stem|] != '/';
        }
      }
    }
  }

  /** The bad-request page name contains no "../". */
  lemma BadRequestPageIsSafe()
    ensures !Contains(BadRequestPage, "../")
  {
    var stem, ext := "pages/400", "html";
    assert '.' !in stem && '/' !in ext;
    DotOnlyInName(stem, ext);
    assert stem + "." + ext == BadRequestPage;
  }
}

=== FILE: responses.dfy ===
/** `handle_req` of the current revision with `get_status` and
    `get_file_type`: the provisional 500 becomes 200, the reason phrase and
    content type are looked up, and the head is formatted with
    `Content-Length` (section 8.6 of RFC 9110) after a status line in the
    form of section 4 of RFC 9112. */
module Responses {
  import opened Base
  import opened Parsing
  import opened Resolution

  const HttpVersion: string := "HTTP/1.1"
  const ContentTypeLabel: string := "\r\nContent-Type: "
  const ContentLengthLabel: string := "\r\nContent-Length: "
  const HeadEnd: string := "\r\n\r\n"

  /** `get_status`: the reason phrase of a status code. */
  function ReasonPhrase(status: int): (r: string)
    ensures CR !in r
    ensures status in {200, 400, 403, 404} <==> r != "Internal Server Error"
  {
    match status
    case 200 => "OK"
    case 400 => "Bad Request"
    case 403 => "Forbidden"
    case 404 => "Not Found"
    case _ => "Internal Server Error"
  }

  /** `get_file_type`: decided by the suffix that starts at the first '.'
      of the path (`strchr`). */
  function ContentType(path: string): (r: string)
    ensures CR !in r
    ensures r in {"text/html", "text/plain", "image/png"}
    ensures '.' !in path ==> r == "text/html"
  {
    match SplitAt(path, '.')
    case None => "text/html"
    case Some((_, after)) =>
      var ext := "." + after;
      if ext == ".txt" then "text/plain"
      else if ext == ".png" then "image/png"
      else "text/html"
  }

  /** The type depends only on what follows the first dot: "a.txt" is
      plain text, "a.tar.txt" and "dir.v2/a.txt" are HTML. */
  lemma ContentTypeByFirstDot(stem: string, ext: string)
    requires '.' !in stem
    ensures ContentType(stem + "." + ext)
         == if ext == "txt" then "text/plain" else if ext == "png" then "image/png" else "text/html"
  {
    assert stem + "." + ext == stem + ['.'] + ext;
    SplitAtFirst(stem, '.', ext);
    var e := "." + ext;
    assert e[1..] == ext;
    assert ".txt"[1..] == "txt" && ".png"[1..] == "png";
  }

  /** The fields of the response head. */
  datatype ResponseHead = ResponseHead(status: nat, reason: string, contentType: string, contentLength: nat)

  /** A response: its head and the bytes written after it. */
  datatype Response = Response(head: ResponseHead, body: seq<byte>)

  /** The `sprintf` of line 367. */
  function FormatHead(h: ResponseHead): (r: string)
    ensures HttpVersion + " " <= r
    ensures |r| >= |HeadEnd| && r[|r| - |HeadEnd|..] == HeadEnd
  {
    HttpVersion + " " + Decimal(h.status) + " " + h.reason
    + ContentTypeLabel + h.contentType
    + ContentLengthLabel + Decimal(h.contentLength) + HeadEnd
  }

  /** A header line's value, when the text starts with the given tag
      (which includes the LF that ended the previous line). */
  function Field(text: string, tag: string): Option<(string, string)> {
    if tag <= text then SplitAt(text[|tag|..], CR) else None
  }

  /** How a client reads a head in this form: status code, reason phrase,
      content type and content length. */
  function ParseHead(text: string): Option<ResponseHead> {
    var prefix := HttpVersion + " ";
    if !(prefix <= text) then None
    else match SplitAt(text[|prefix|..], ' ')
      case None => None
      case Some((code, rest)) =>
        match ParseNumber(code)
        case None => None
        case Some(status) => ParseFields(status, rest)
  }

  /** The rest of the head after the status code and its space. */
  function ParseFields(status: nat, text: string): Option<ResponseHead> {
    match SplitAt(text, CR)
    case None => None
    case Some((reason, afterReason)) =>
    match Field(afterReason, "\nContent-Type: ")
    case None => None
    case Some((contentType, afterType)) =>
    match Field(afterType, "\nContent-Length: ")
    case None => None
    case Some((length, tail)) =>
    match ParseNumber(length)
    case None => None
    case Some(n) => if tail == "\n\r\n" then Some(ResponseHead(status, reason, contentType, n)) else None
  }

  lemma DigitsHaveNoSeparator(s: string)
    requires IsDigits(s)
    ensures ' ' !in s && CR !in s
  {
    forall i | 0 <= i < |s| ensures s[i] != ' ' && s[i] != CR {
      assert IsDigit(s[i]);
    }
  }

  /** A tagged field is read up to the CR that ends it. */
  lemma FieldRoundTrip(tag: string, value: string, rest: string)
    requires CR !in value
    ensures Field(tag + value + [CR] + rest, tag) == Some((value, rest))
  {
    var text := tag + value + [CR] + rest;
    assert tag <= text;
    assert text[|tag|..] == value + [CR] + rest;
    SplitAtFirst(value, CR, rest);
  }

  /** The fields after the status code are read back as formatted. */
  lemma FieldsRoundTrip(h: ResponseHead)
    requires CR !in h.reason && CR !in h.contentType
    ensures ParseFields(h.status, h.reason + ContentTypeLabel + h.contentType
                                  + ContentLengthLabel + Decimal(h.contentLength) + HeadEnd) == Some(h)
  {
    var length := Decimal(h.contentLength);
    var afterType := "\nContent-Length: " + length + [CR] + "\n\r\n";
    var afterReason := "\nContent-Type: " + h.contentType + [CR] + afterType;
    assert h.reason + ContentTypeLabel + h.contentType + ContentLengthLabel + length + HeadEnd
        == h.reason + [CR] + afterReason by {
      FieldsLayout(h.reason, h.contentType, length);
    }
    assert SplitAt(h.reason + [CR] + afterReason, CR) == Some((h.reason, afterReason)) by {
      SplitAtFirst(h.reason, CR, afterReason);
    }
    assert Field(afterReason, "\nContent-Type: ") == Some((h.contentType, afterType)) by {
      FieldRoundTrip("\nContent-Type: ", h.contentType, afterType);
    }
    assert Field(afterType, "\nContent-Length: ") == Some((length, "\n\r\n")) by {
      DigitsHaveNoSeparator(length);
      FieldRoundTrip("\nContent-Length: ", length, "\n\r\n");
    }
    assert ParseNumber(length) == Some(h.contentLength) by {
      DecimalRoundTrip(h.contentLength);
    }
  }

  /** The labels are CR followed by the tags a client looks for. */
  lemma FieldsLayout(reason: string, contentType: string, length: string)
    ensures reason + ContentTypeLabel + contentType + ContentLengthLabel + length + HeadEnd
         == reason + [CR] + ("\nContent-Type: " + contentType + [CR]
                              + ("\nContent-Length: " + length + [CR] + "\n\r\n"))
  {
    assert ContentTypeLabel == [CR] + "\nContent-Type: ";
    assert ContentLengthLabel == [CR] + "\nContent-Length: ";
    assert HeadEnd == [CR] + "\n\r\n";
  }

  /** A client reads back exactly the head that was formatted. */
  lemma HeadRoundTrip(h: ResponseHead)
    requires CR !in h.reason && CR !in h.contentType
    ensures ParseHead(FormatHead(h)) == Some(h)
  {
    var code := Decimal(h.status);
    DigitsHaveNoSeparator(code);
    DecimalRoundTrip(h.status);
    var fields := h.reason + ContentTypeLabel + h.contentType
                  + ContentLengthLabel + Decimal(h.contentLength) + HeadEnd;
    var prefix := HttpVersion + " ";
    assert FormatHead(h) == prefix + (code + [' '] + fields);
    assert FormatHead(h)[|prefix|..] == code + [' '] + fields;
    SplitAtFirst(code, ' ', fields);
    FieldsRoundTrip(h);
  }

  /** `handle_req` (lines 340-375) up to the two writes: resolve the file,
      turn the provisional 500 into 200, and fill in the head. Content-Length
      is the file size, or 0 when no file was returned. */
  function HandleRequest(fs: FileSystem, req: Request): (resp: Response)
    requires Resolvable(req)
    ensures resp.head.contentLength == |resp.body|
    ensures resp.head.reason == ReasonPhrase(resp.head.status)
    ensures req.status in {400, 500} ==> resp.head.status in {200, 400, 403, 404}
    ensures req.status == 500 ==>
      (resp.head.status == 200 <==> !Traversal(req) && Target(req) in fs)
    ensures req.status in {400, 500} ==> (resp.head.status == 403 <==> Traversal(req))
    ensures !Traversal(req) && Target(req) in fs ==> resp.body == fs[Target(req)]
    ensures Traversal(req) ==> resp.body == (if ForbiddenPage in fs then fs[ForbiddenPage] else [])
    ensures req.status in {400, 500} && !Traversal(req) && Target(req) !in fs ==>
      resp.head.status == 404 && resp.body == (if NotFoundPage in fs then fs[NotFoundPage] else [])
  {
    var r := Resolve(fs, req);
    var length := if r.file.Some? then r.request.contentLength else 0;
    var status := if r.request.status == 500 then 200 else r.request.status;
    var body := if r.file.Some? then r.file.value else [];
    Response(ResponseHead(status, ReasonPhrase(status), ContentType(r.request.path), length), body)
  }

  /** Requesting an existing file by "/" + its name returns status 200, its
      bytes, and their count as Content-Length. */
  lemma ServesRequestedFile(fs: FileSystem, req: Request, name: string)
    requires req.status == 500 && req.path == "/" + name
    requires name != [] && !Contains(name, "../") && name in fs
    ensures HandleRequest(fs, req) == Response(ResponseHead(200, "OK", ContentType(req.path), |fs[name]|), fs[name])
  {
    assert Stripped(req) == name;
  }

  /** A request with status 400 (an unknown method on a line the parser
      can read) is answered with the 400 page and status 400, provided that
      page exists. */
  lemma BadRequestAnswered(fs: FileSystem, req: Request)
    requires req.status == 400 && BadRequestPage in fs
    ensures HandleRequest(fs, req)
         == Response(ResponseHead(400, "Bad Request", "text/html", |fs[BadRequestPage]|), fs[BadRequestPage])
  {
    var page := fs[BadRequestPage];
    assert HandleRequest(fs, req)
        == Response(ResponseHead(400, ReasonPhrase(400), ContentType(BadRequestPage), |page|), page) by {
      BadRequestResolved(fs, req);
    }
    BadRequestPageType();
  }

  /** `get_file` loads the 400 page for a bad request. */
  lemma BadRequestResolved(fs: FileSystem, req: Request)
    requires req.status == 400 && BadRequestPage in fs
    ensures Resolve(fs, req) == Loaded(req.(path := BadRequestPage), fs[BadRequestPage])
  {
    BadRequestPageIsSafe();
    assert BadRequestPage[0] == 'p';
    assert Stripped(req) == BadRequestPage;
  }

  /** The 400 page is served as HTML. */
  lemma BadRequestPageType()
    ensures ContentType(BadRequestPage) == "text/html"
  {
    var stem, ext := "pages/400", "html";
    assert '.' !in stem;
    ContentTypeByFirstDot(stem, ext);
    assert stem + "." + ext == BadRequestPage;
  }

  /** The 403 page is served as HTML. */
  lemma ForbiddenPageType()
    ensures ContentType(ForbiddenPage) == "text/html"
  {
    var stem := "pages/403";
    assert '.' !in stem && ForbiddenPage == stem + ".html";
    HtmlPageType(stem, ForbiddenPage);
  }

  /** The 404 page is served as HTML. */
  lemma NotFoundPageType()
    ensures ContentType(NotFoundPage) == "text/html"
  {
    var stem := "pages/404";
    assert '.' !in stem && NotFoundPage == stem + ".html";
    HtmlPageType(stem, NotFoundPage);
  }

  /** A page named stem + ".html" is HTML. */
  lemma HtmlPageType(stem: string, page: string)
    requires '.' !in stem && page == stem + ".html"
    ensures ContentType(page) == "text/html"
  {
    ContentTypeByFirstDot(stem, "html");
    assert stem + "." + "html" == page;
  }

  /** A leading character other than '.' does not change the type: the
      slash `get_file` strips leaves `get_file_type`'s answer alone. */
  lemma ContentTypeSkipsFirst(path: string)
    requires path != [] && path[0] != '.'
    ensures ContentType(path[1..]) == ContentType(path)
  {
    assert path == [path[0]] + path[1..];
  }

  /** The Content-Type of an answer: the type of the file that was opened
      when the target exists, HTML for the 403 and 404 fallbacks. */
  lemma HandleRequestType(fs: FileSystem, req: Request)
    requires Resolvable(req)
    ensures var resp := HandleRequest(fs, req);
      && (Traversal(req) ==> resp.head.contentType == "text/html")
      && (!Traversal(req) && Target(req) !in fs ==> resp.head.contentType == "text/html")
      && (!Traversal(req) && Target(req) in fs ==> resp.head.contentType == ContentType(Target(req)))
  {
    ForbiddenPageType();
    NotFoundPageType();
    if !Traversal(req) && Target(req) in fs && Stripped(req) != [] && req.status != 400 {
      if req.path[0] == '/' {
        ContentTypeSkipsFirst(req.path);
      }
    }
  }

  // ---------------------------------------------------------------------------
  // The bytes written for the head
  // ---------------------------------------------------------------------------

  /** `sizeof(int)` on the platforms the server targets. */
  const IntSize: nat := 4

  /** `total_length` (line 357): the byte count passed to the first `write`.
      It reserves `sizeof(int)` bytes for each number rather than counting
      its digits. */
  function HeadBudget(h: ResponseHead): (n: nat)
    ensures n + |Decimal(h.status)| + |Decimal(h.contentLength)| == |FormatHead(h)| + 2 * IntSize + 1
  {
    |HttpVersion| + IntSize + |h.reason| + |ContentTypeLabel| + |h.contentType|
    + |ContentLengthLabel| + IntSize + |HeadEnd| + 3
  }

  /** The formatted head of a three-digit status is 51 characters plus the
      reason, the type and the digits of the length. */
  lemma HeadLength(h: ResponseHead)
    requires 100 <= h.status < 1000
    ensures |FormatHead(h)| == 51 + |h.reason| + |h.contentType| + |Decimal(h.contentLength)|
  {
    DecimalWidth(h.status, 3);
    DecimalWidth(h.status, 2);
  }

  /** The budget is the head's length exactly when Content-Length has six
      digits; it is larger for shorter numbers and smaller for longer ones. */
  lemma BudgetMatchesOnlySixDigits(h: ResponseHead)
    requires 100 <= h.status < 1000
    ensures HeadBudget(h) == |FormatHead(h)| <==> 100000 <= h.contentLength < 1000000
    ensures HeadBudget(h) > |FormatHead(h)| <==> h.contentLength < 100000
  {
    HeadLength(h);
    DecimalWidth(h.contentLength, 5);
    DecimalWidth(h.contentLength, 6);
  }

  function Zeros(n: nat): (z: seq<byte>)
    ensures |z| == n && forall i | 0 <= i < n :: z[i] == 0
  {
    seq(n, _ => 0)
  }

  /** What the two `write` calls put on the socket as the source is
      written: `total_length` bytes of the zero-filled buffer, then the
      body. When the head is longer than the buffer, `sprintf` writes past
      its end, which is undefined; that case is None. */
  function WireAsWritten(r: Response): (w: Option<seq<byte>>)
    ensures w.Some? <==> |FormatHead(r.head)| <= HeadBudget(r.head)
    ensures w.Some? ==> |w.value| == HeadBudget(r.head) + |r.body|
  {
    var head := FormatHead(r.head);
    if |head| <= HeadBudget(r.head) then
      Some(Octets(head) + Zeros(HeadBudget(r.head) - |head|) + r.body)
    else None
  }

  /** Corrected write: exactly the formatted head (the count `sprintf`
      returns), then the body. What follows the head on the wire is the body
      and nothing else. */
  function Wire(r: Response): (w: seq<byte>)
    ensures |w| == |FormatHead(r.head)| + |r.body|
    ensures w[..|FormatHead(r.head)|] == Octets(FormatHead(r.head))
    ensures w[|FormatHead(r.head)|..] == r.body
  {
    Octets(FormatHead(r.head)) + r.body
  }

  /** With the correction, a client that reads the head (which it parses
      back, by HeadRoundTrip) and then Content-Length bytes receives exactly
      the body. */
  lemma WireDeliversBody(r: Response)
    requires r.head.contentLength == |r.body|
    ensures var k := |FormatHead(r.head)|; var w := Wire(r);
      w[k..k + r.head.contentLength] == r.body
  {
    var k := |FormatHead(r.head)|;
    assert Wire(r)[k..k + r.head.contentLength] == r.body by {
      var w := Wire(r);
      assert w[k..] == r.body && |w| == k + |r.body|;
      assert w[k..k + r.head.contentLength] == w[k..];
    }
  }

  /** As written, a Content-Length of fewer than six digits puts NUL bytes
      between the head and the body, so a client reading Content-Length
      bytes after the head gets NULs and loses the body's tail. */
  lemma ShortLengthSendsNuls(r: Response)
    requires 100 <= r.head.status < 1000
    requires r.head.contentLength < 100000
    ensures var k := |FormatHead(r.head)|; var pad := 6 - |Decimal(r.head.contentLength)|;
      && 0 < pad
      && WireAsWritten(r).Some?
      && WireAsWritten(r).value[k..] == Zeros(pad) + r.body
      && WireAsWritten(r).value != Wire(r)
  {
    BudgetMatchesOnlySixDigits(r.head);
    HeadLength(r.head);
    DecimalWidth(r.head.contentLength, 5);
    var head := FormatHead(r.head);
    var w := WireAsWritten(r).value;
    assert w == Octets(head) + (Zeros(HeadBudget(r.head) - |head|) + r.body);
    assert |w| != |Wire(r)|;
  }

  /** A five-byte file, the smallest kind of example: five NULs precede it. */
  lemma FiveByteFile(body: seq<byte>)
    requires |body| == 5
    ensures var r := Response(ResponseHead(200, "OK", "text/plain", 5), body);
      WireAsWritten(r).value[|FormatHead(r.head)|..] == Zeros(5) + body
  {
    var r := Response(ResponseHead(200, "OK", "text/plain", 5), body);
    assert Decimal(5) == "5";
    ShortLengthSendsNuls(r);
  }

  /** As written, a Content-Length of seven digits or more overruns the
      buffer. */
  lemma LongLengthOverflows(r: Response)
    requires 100 <= r.head.status < 1000
    requires r.head.contentLength >= 1000000
    ensures WireAsWritten(r).None?
  {
    BudgetMatchesOnlySixDigits(r.head);
  }

  /** Below seven digits the head fits the buffer: the first `write` is
      defined (with the NUL padding of ShortLengthSendsNuls under six). */
  lemma ShortLengthFits(r: Response)
    requires 100 <= r.head.status < 1000
    requires r.head.contentLength < 1000000
    ensures WireAsWritten(r).Some?
  {
    BudgetMatchesOnlySixDigits(r.head);
  }

  /** The corrected write agrees with the source exactly when the length has
      six digits. */
  lemma SixDigitsAgree(r: Response)
    requires 100 <= r.head.status < 1000
    requires 100000 <= r.head.contentLength < 1000000
    ensures WireAsWritten(r) == Some(Wire(r))
  {
    BudgetMatchesOnlySixDigits(r.head);
    assert Zeros(0) == [];
    assert Octets(FormatHead(r.head)) + Zeros(0) + r.body == Wire(r);
  }
}
